=== FILE: README.md ===
# Inky photo frame — a Dafny model of its core

This project models the decision logic of a Raspberry Pi photo frame that shows photos on an Inky e-paper display. The model covers five parts:

- **Photo sources** (`photo_sources.dfy`, module `PhotoSources`). Each source has a catalog: an ordered photo list, a sequential cursor that only grows, and a random/sequential selection mode. The local source scans a directory: it keeps regular files with a supported extension and sorts them in pathlib order. The iCloud source serves assets from a cache directory and downloads on demand.
- **The composite source** (`composite.dfy`, module `CompositeSource`). It joins several sources into one index space through a table of offsets. The table is taken when the index is rebuilt, while lookups read each member's live count.
- **The photo processor** (`photo_processor.dfy`, module `PhotoProcessor`).
  - `smart_crop` computes a 4:3 crop box in exact integer arithmetic.
  - `load_image` normalises the colour mode.
  - `enhance_for_epaper` picks which enhancements to apply.
  - The pipeline fixes the order of its steps and the output size.
  - An image is a record of its size, mode, colour profile and the list of steps applied to it. No pixels are modelled.
- **The display manager** (`display_manager.dfy`, module `DisplayManager`).
  - Its state is an update counter, a saturation, the resolution and whether a board was detected.
  - Initialisation and `show` each make at most three attempts, waiting 1 s and then 2 s between them.
  - The full-refresh decision is made once, before any attempt.
  - The driver is represented by the sequence of answers it gives to the attempts.
- **The configuration** (`config.dfy`, module `Config`). This covers the dataclass defaults, defaulting from a parsed TOML document, loading, the ordered checks of `validate()`, and `is_valid()`.
- **The main program** (`main_loop.dfy`, module `MainLoop`). This covers start-up up to the loop, `display_next_photo`, and the loop body with its "placeholder shown" flag. The loop is a sequence of rounds, one per refresh interval. The sources and the display answer through round inputs.

Shared wrappers are in `util.dfy` (module `Util`): `Option`, `Result`, and ASCII case mapping.

Nothing of the outside world is called by the model. Directory listings, the remote library, download outcomes, whether image files exist and can be read, colour-profile transforms, and the driver's answers are all parameters. Random selection is a choice of any index in range.

## Model

| member | source | states |
|---|---|---|
| PhotoSources.ResolveMode | src/photo_sources.py:71-79 | An enum member is taken as is. A string resolves exactly when its lowercase form is "random" or "sequential", and it resolves to the mode whose value is that form. Any other string is an error naming its lowercase form, as the ValueError does. |
| PhotoSources.ModeValueRoundTrip | src/photo_sources.py:24-28 | Each mode's value, in lower or upper case, resolves back to that mode. |
| PhotoSources.SetModeByValue | src/photo_sources.py:71-79 | Setting a mode by its member, its value or its upper-cased value puts the catalog in that mode, and photos and cursor are kept. A string that is not any mode's value once lowercased is refused with that lowercase form. |
| PhotoSources.SelectSequential | src/photo_sources.py:110-113 | The pick is the cursor modulo the list length, so it is a valid index. The list and mode are kept and the cursor grows by one. |
| PhotoSources.SelectPhotoIndex | src/photo_sources.py:98-113 | Returns nothing exactly when the list is empty. Any index returned is below the list length. In sequential mode it returns the cursor modulo the length and advances the cursor by one. In random mode the catalog is unchanged. |
| PhotoSources.SequentialVisitsInOrder | src/photo_sources.py:110-113 | k consecutive sequential picks are the cursor plus j, modulo n, for j from 0 to k-1. The list is visited in order and wraps around. |
| PhotoSources.SequentialThreePhotosWrap | src/photo_sources.py:110-113 | With three photos and a fresh cursor, four picks give 0, 1, 2, 0. |
| PhotoSources.SortPaths | src/photo_sources.py:222 | The result is sorted in pathlib order and is a permutation of the input. |
| PhotoSources.Suffix | src/photo_sources.py:219 | A non-empty suffix is a proper tail of the name that starts with its only dot, at a position other than the first. The suffix is empty only when no dot sits strictly inside the name with no dot after it. |
| PhotoSources.SuffixExamples | src/photo_sources.py:219 | "IMG_1.JPG" has suffix ".JPG" and "archive.tar.gz" has ".gz". A hidden ".jpg" and a trailing-dot name have none. |
| PhotoSources.EligiblePathsMembership | src/photo_sources.py:218-220 | A path is kept exactly when the walk yielded it as a regular file with a supported lowercased suffix. |
| PhotoSources.RefreshLocal | src/photo_sources.py:208-226 | A failed scan leaves the source unchanged. Otherwise only the list changes, and it becomes the sorted permutation of the eligible paths. The cursor and mode are never reset. |
| PhotoSources.RefreshLocalMembership | src/photo_sources.py:208-226 | After a successful refresh a path is listed exactly when the walk saw it as eligible, so stale entries do not survive. |
| PhotoSources.LocalPhotoPath | src/photo_sources.py:228-240 | Returns nothing exactly when the index is at or past the end, or below minus the length. Anything returned is in the list. |
| PhotoSources.LocalNegativeIndexWraps | src/photo_sources.py:237-240 | Index i minus n reaches the same photo as index i. |
| PhotoSources.ICloudPhotoPath | src/photo_sources.py:356-412 | An index outside [0, n) returns nothing and requests no download. Otherwise a download is requested exactly when the asset's cache file is absent and the session is authenticated. The file then exists unless the download never started, and a path is returned exactly when the file exists. |
| PhotoSources.ICloudSecondFetchIsCached | src/photo_sources.py:368-377 | Once a lookup has produced a file, a second lookup of the same index is served from the cache without a download. |
| PhotoSources.RefreshICloud | src/photo_sources.py:343-354 | If the source is unauthenticated and authentication fails, it is unchanged. Otherwise it is authenticated afterwards and holds the fetched library, or the old list if fetching raised. Cursor, mode and cache are kept. |
| CompositeSource.RebuildIndex | src/photo_sources.py:468-477 | The k-th offset equals the sum of the counts of members 0 to k-1. |
| CompositeSource.RebuildIndexNondecreasing | src/photo_sources.py:468-477 | Rebuilt offsets never decrease. Consecutive offsets differ by the earlier member's count. |
| CompositeSource.NewComposite | src/photo_sources.py:457-466 | A new composite has offsets that match its members, and its own inherited list is empty. |
| CompositeSource.CompositeCount | src/photo_sources.py:541-547 | The count is the length of all members' lists laid end to end. |
| CompositeSource.FindIn | src/photo_sources.py:485-499 | Returns the first pair whose interval [offset, offset + count) holds the index, with local index equal to the index minus the offset. Returns nothing if no pair holds it. |
| CompositeSource.FindSourceForIndex | src/photo_sources.py:485-499 | Compares stored offsets with live counts. It finds the first member whose interval holds the index, with an in-range local index, and nothing when no member's interval holds it. |
| CompositeSource.FreshLookupResolves | src/photo_sources.py:468-499 | With offsets that match the members, every index in [0, count) resolves to the photo at that position in the concatenated lists, and every other index resolves to nothing. |
| CompositeSource.FreshIntervalsDisjoint | src/photo_sources.py:468-499 | With offsets that match the members, no index lies in two members' intervals. |
| CompositeSource.CompositeRefresh | src/photo_sources.py:479-483 | Every member is refreshed with its own environment. The offsets are rebuilt from the new counts, and the composite's own catalog is untouched. |
| CompositeSource.WatcherRefresh | src/photo_sources.py:184-198 | When a watcher refreshes local member k, that member becomes its own refreshed source and every other member is unchanged. A cloud member is never watched, so nothing changes. The offsets stay as they were. |
| CompositeSource.StaleOffsetsMissPhotos | src/photo_sources.py:485-499 | Counterexample: after one member refreshes without a rebuild, the composite counts one photo but index 0 finds no member. |
| CompositeSource.CompositeSetMode | src/photo_sources.py:531-539 | Succeeds exactly when the mode resolves. The same mode is then set on the composite and on every member, and the lists and offsets are kept. |
| CompositeSource.CompositePhotoPath | src/photo_sources.py:501-514 | An index that resolves to no member gives nothing and changes nothing. An index found in member k at local index li returns that member's own lookup at li. This holds for a local list read with Python indexing and for a cloud lookup that may download into the cache, including when the offsets are stale. No lookup changes a list, the offsets or the composite's catalog. |
| CompositeSource.FreshPathMatchesItem | src/photo_sources.py:501-514 | With offsets that match the members, a global index that is a local file yields that file's path. An index that is a cloud asset can only yield that asset's cache file. |
| CompositeSource.CompositeSelectPhoto | src/photo_sources.py:98-124 | The inherited select_photo on a composite whose own list is empty returns nothing and changes nothing. The own list stays empty. |
| CompositeSource.CompositeHasPhotosGap | src/photo_sources.py:90-96 | A composite that is built, refreshed or re-moded never reports photos from has_photos, even when its count is positive. |
| CompositeSource.IntendedSelectPhotoIndex | src/photo_sources.py:98-113 | Intended selection over the combined index space. It returns nothing exactly when no member holds a photo. Any pick is below the count and resolves to a member. In sequential mode the pick is the cursor modulo the live count. |
| PhotoProcessor.CropBox | src/photo_processor.py:47-73 | There is no box exactly when the ratio is within 0.01 of 4/3, and every box lies inside the image. A wide image keeps its full height, with a width within one pixel's truncation of 4/3 of the height, centred up to one pixel. A tall image keeps its full width, with a height within truncation of 3/4 of the width. A tall image is top-aligned when the bias is "top" and the ratio is below 0.8, and otherwise centred up to one pixel. |
| PhotoProcessor.OneColumnCropsToEmpty | src/photo_processor.py:54-73 | A picture one pixel wide is cut to an empty 1×0 box, and processing it still gives a target-sized image. |
| PhotoProcessor.CropSettles | src/photo_processor.py:50-52 | Cropping a cropped image again does nothing, whatever the bias, once the kept height exceeds 100 pixels so truncation stays inside the tolerance. |
| PhotoProcessor.ColourSteps | src/photo_processor.py:88-110 | The profile step appears exactly when a profile was applied, and the result always ends converted to RGB. |
| PhotoProcessor.EnhanceSteps | src/photo_processor.py:135-149 | Saturation is applied exactly when its factor is not 1.0, then contrast exactly when its factor is not 1.0, and always sharpness 1.2 last, in that order. |
| PhotoProcessor.SmartCrop | src/photo_processor.py:32-73 | The image is unchanged near 4:3. Otherwise it gets the crop step and the box's size. |
| PhotoProcessor.ConvertToSrgb | src/photo_processor.py:76-110 | The result is RGB of the same size, and its profile step is present exactly when the image had a profile and the transform worked. |
| PhotoProcessor.LoadImage | src/photo_processor.py:190-224 | Missing or unopenable files give nothing, and so do files whose header gives a zero width or height, which PIL does not identify. A truncated file gets through only in RGB mode: opening reads just the header, while converting or splitting another mode decodes it inside the try. Otherwise the result is RGB of the file's size. It is composited on white exactly when the file was RGBA and converted exactly when it was another mode. |
| PhotoProcessor.Process | src/photo_processor.py:226-266 | The output is RGB at the target size and extends the input's history. The appended steps are in crop, colour, resize, enhance order. They include the resize to the target and the RGB conversion. They include a crop exactly when the image was not near 4:3, and they end with sharpness. |
| PhotoProcessor.ProcessFile | src/photo_processor.py:268-282 | The result is None exactly when loading gives nothing. Otherwise the image has the target size, is RGB, and its steps end with sharpness. An error comes exactly from a file that opens and is truncated or meets a non-positive target. A truncated file that opens always fails with the decode error, whatever the target. |
| DisplayManager.RetryFrom | src/display_manager.py:161-185 | The attempts stop at the first success or after the third. Every earlier attempt failed. There is one wait between consecutive attempts, of length 1 s doubled per attempt, and none after the last. |
| DisplayManager.RetryYieldsFirstSuccess | src/display_manager.py:78-100 | Retrying succeeds exactly when some attempt succeeds, and then yields the first success. |
| DisplayManager.RetryAllFailSleeps | src/display_manager.py:173-185 | When all three attempts fail, there are exactly three attempts with waits of 1 s and 2 s. |
| DisplayManager.InitializeDisplay | src/display_manager.py:69-100 | Succeeds exactly when some detection succeeds, and then takes the detected board's width and height. Failure leaves the manager as it was, after waits of 1 s and 2 s. |
| DisplayManager.GetInstance | src/display_manager.py:54-67 | An existing instance is returned as is. Without the library nothing is built. Otherwise a manager with saturation 0.5, count 0 and nothing staged is stored before it is initialised. It is handed back exactly when a detection succeeds, and then carries the first detected resolution. After three failures the stored manager keeps 1600×1200, the call raises, and it slept 1 s then 2 s. |
| DisplayManager.GetInstanceReturnsSlot | src/display_manager.py:61-67 | Once the slot is filled, later calls return that same instance whatever the driver answers. |
| DisplayManager.FailedInitLeavesUndetectedInstance | src/display_manager.py:61-67 | After a failed first initialisation, the next call returns the stored manager without detecting any board. |
| DisplayManager.SetSaturation | src/display_manager.py:122-129 | The saturation is clamped into [0, 1], and nothing else changes. |
| DisplayManager.SetImage | src/display_manager.py:131-142 | An explicit saturation is stored as given, and None keeps the current one. The image is staged exactly when a board is attached. |
| DisplayManager.SaturationOverrideIsNotClamped | src/display_manager.py:122-142 | set_image stores any override as given. It agrees with set_saturation exactly when the value lies in [0, 1]; set_saturation(2.0), for instance, stores 1.0. |
| DisplayManager.Show | src/display_manager.py:144-185 | The full refresh is decided once, as the force flag or a count divisible by 10. Show succeeds exactly when a board is attached and some attempt works. On success the attempt after the last wait is the first that works, the waits are 1 s doubled per failed attempt, and the count grows by one. Total failure leaves the manager unchanged after waits of 1 s and 2 s. |
| DisplayManager.Update | src/display_manager.py:187-195 | Stages the image at the current saturation, then shows it. The count grows by one exactly on success. With no board the manager is unchanged and nothing is retried. With a board whose three shows all fail, the image stays staged at the current saturation and the call slept 1 s then 2 s. |
| DisplayManager.ResetForcesFullRefresh | src/display_manager.py:197-203 | The first show after a reset is a full refresh. |
| DisplayManager.Clear | src/display_manager.py:205-213 | Without a board, clear does nothing. With a board, it shows a blank canvas as a forced full refresh. |
| DisplayManager.ShowNoPhotosMessage | src/display_manager.py:215-282 | Succeeds exactly when a board is attached and some attempt works. It then stages a full-screen placeholder with a full refresh. |
| DisplayManager.FullRefreshEveryTenth | src/display_manager.py:158-169 | Over successive shows, the j-th is a full refresh exactly when the starting count plus j is divisible by 10. |
| Config.FromDocument | src/config.py:185-234 | A missing section keeps its dataclass defaults, and an empty apple_id never survives. |
| Config.FromDocumentFillsGaps | src/config.py:185-234 | Writing out what was read gives back the document with every missing section and every missing key of a present section filled in from the written-out defaults. Every present key is kept. So each key is read on its own, and a document reads the same as its completion. |
| Config.DocumentRoundTrip | src/config.py:185-234 | Writing a configuration out as a document and reading it back gives it back exactly when its apple_id is not the empty string. |
| Config.EmptyDocumentGivesDefaults | src/config.py:15-79 | An empty document, or one whose sections are all empty, gives the dataclass defaults. |
| Config.LoadRoundTrip | src/config.py:84-107 | A configuration saved in full loads back as itself exactly when its apple_id is not the empty string. A missing file loads as the same configuration as a document that spells out every default. |
| Config.Run | src/config.py:236-274 | Runs the given checks in order and reports exactly the violated ones, in rank order. |
| Config.Validate | src/config.py:236-274 | A finding is reported exactly when its condition holds, and the findings come in the order validate checks them. |
| Config.ValidIffNoCheckViolated | src/config.py:276-278 | is_valid holds exactly when no check is violated. |
| Config.DefaultsAreValid | src/config.py:15-79 | The dataclass defaults pass every check. |
| MainLoop.StartUp | main.py:161-212 | Start-up exits with code 1 exactly in these cases: the configuration fails to load or validate, the library is missing, or no detection succeeds. Otherwise the display is detected with count 0 and the configured saturation, and the processor is sized to the display. |
| MainLoop.DisplayNextPhoto | main.py:103-150 | A photo is shown exactly when there are photos, one is selected, it loads and processes, and the display takes it. If there are no photos or no selection, the display is untouched. On success the count grows by one and the full refresh combines the forced decision with the tenth-update rule. |
| MainLoop.HeightRuleIgnoresConfiguredCadence | main.py:141 | Counterexample: at count 5 on a 1200-pixel-high display with full_refresh_every = 5, no full refresh is forced and the update is partial. |
| MainLoop.GoodAttempt | main.py:103-150 | display_next_photo on a selected photo that loads with pixels, on a display that takes it, shows the photo. The count grows by one, and the refresh is full exactly when the count is a multiple of the cadence or of 10. |
| MainLoop.GoodRound | main.py:236-239 | A round whose photo loads with pixels and whose show() succeeds on some attempt shows the photo. The count grows by one, and the refresh is full exactly when the count is a multiple of the cadence or of 10. |
| MainLoop.AttemptsAt | main.py:141 | The j-th of the expected attempts from update c is shown, and it is a full refresh exactly when c + j is a multiple of the cadence or of 10. |
| MainLoop.PhotoRunRefreshes | main.py:231-239 | Over consecutive successful photo rounds, no round is fatal, and the actions are exactly the expected attempts starting from the initial update count. |
| MainLoop.AsWrittenRunRefreshes | main.py:141 | As written, in such a run the j-th photo is a full refresh exactly when count + j is a multiple of the display height or of 10. |
| MainLoop.ConfiguredCadenceRun | main.py:141 | With the configured cadence n > 0, in such a run the j-th photo is a full refresh exactly when count + j is a multiple of n or of 10. |
| MainLoop.Round | main.py:231-248 | A round with photos attempts a photo and clears the flag. A round without photos and with the flag set only waits. With the flag clear, the placeholder is drawn and the flag set, and the round is fatal exactly when drawing fails. |
| MainLoop.Run | main.py:231-257 | A run that ends normally records one action per round, and a run stopped by a fatal round records fewer. A fatal first round ends the run at once with no actions, as the outer `except` returning 1 does. When the first round continues, its action is the first one recorded. |
| MainLoop.IdleRunsWait | main.py:242-248 | Once the flag is set, rounds without photos only wait and never touch the display. |
| MainLoop.PlaceholderDrawnOnce | main.py:242-248 | With the flag clear, a run without photos draws the placeholder once, in its first round, and then only waits. |
| MainLoop.StartupFlagHidesPlaceholder | main.py:219 | As written, a frame that starts without photos and stays without them never draws the placeholder. |
| MainLoop.IntendedFlagShowsPlaceholderOnce | main.py:218-248 | With the flag starting clear, such a frame draws the placeholder exactly once, in the first round. |
| MainLoop.CompositeInputs | main.py:231-235 | Each round refreshes the composite before asking has_photos. As written, the answer is always "no photos". |
| MainLoop.CompositeFrameNeverDraws | main.py:216-248 | As written, a frame over a composite source only waits, round after round, whatever its members hold. |
| MainLoop.IntendedCompositeAttemptsPhotos | main.py:231-239 | With the intended has_photos, a round whose refresh leaves some member photo attempts to show one. |

## Left out

- build-image.py is not part of this model. It is image-building plumbing: downloads, mounts and file writes.
- File watching (watchdog observer, `_start_watching`, `stop_watching`) and the thread locks. The model is single-threaded, and a watcher-triggered refresh is the separate operation `WatcherRefresh`.
- `load_photo` on every source. It only reads bytes from the path that `get_photo_path` gives.
- iCloud authentication (`_authenticate`, 2FA prompts, pyicloud calls) and `clear_cache`. The outcome of authentication is a boolean input, and the cache is a set of file names.
- `create_photo_sources`. It builds the local source, adds the iCloud source when enabled, and sets the mode through `CompositeSetMode`. The model takes the resulting member list as given.
- All pixel work: ICC transforms, Lanczos resampling, the enhancement maths, alpha compositing and the placeholder's fonts and text layout. Images are size, mode, profile and step tags.
- PhotoProcessor.CropBox: floating point is not modelled. The tolerance test, the ratio comparisons and `int(h*4/3)` / `int(w*3/4)` use exact rational arithmetic: `100*|3w-4h| < 3h`, `3w > 4h`, `5w < 4h`, and floor division. Float rounding may differ at the boundaries.
- PhotoProcessor.ProcessFile: each exception is an error tag. A non-positive target stands for PIL's resize error, and a truncated body for the `OSError` of its first decode. A zero-size file never opens, because PIL does not identify it, so `w / h` never divides by zero. An empty crop, such as the 1×0 box of a one-pixel-wide picture, is taken to resize like any other image. The pixels the resampler makes from it are not modelled. Every decode of a truncated file is taken to fail. Pillow's `LOAD_TRUNCATED_IMAGES` switch, which would let it through, is not modelled.
- `process_and_save`. It writes a file.
- DisplayManager.Show: whether the refresh is full or partial is returned as a value but has no effect on the driver. The code only logs it, because the driver's `show()` takes no argument.
- Sleeps, clocks and the wait between rounds are not modelled. Backoff delays are values only, and rounds are not timed.
- Signal handling, `setup_logging`, logging output and the shutdown `finally` block.
- `Config._find_config_path`, `Config._generate_template`, TOML parsing and `expand_*_path`. `Config.Load` starts from what the found path holds: nothing, text that is not TOML, or a parsed document. A parsed document has a typed optional field for each key. Values of the wrong type from TOML are not modelled.
- Config.Validate: findings are tags. Their exact messages are given by `Config.Message`. The logging level's upper-casing is ASCII only.
- PhotoSources.ResolveMode: lowercasing is ASCII only, where Python's `str.lower` is Unicode. Which mode a name resolves to is the same, because both mode names are ASCII. Only the text of the error differs for non-ASCII input.
- PhotoSources.Eligible: the suffix is lowercased ASCII only. Membership is the same, because every supported extension is ASCII.
- DisplayManager.SetImage: the driver's own `set_image` raising while a board is attached is not modelled. Only a missing driver makes the call fail.
- PhotoSources.SelectPhotoIndex: `random.randint` is a choice of any index in range. Its distribution is not modelled.
- PhotoSources.Suffix: pathlib's rules for names made only of dots are not modelled. Such names never carry a supported extension anyway.
- The selection-mode validation in `validate()` is case-sensitive, while `set_selection_mode` lowercases its argument. The model keeps both behaviours as written.

## Findings

| source | as written | input that shows it | evidently intended | confidence | as-written member | corrected member |
|---|---|---|---|---|---|---|
| src/photo_sources.py:90-113 | `CompositePhotoSource` inherits `has_photos` and `select_photo_index`, and these read its own `_photos`. That list is never filled (src/photo_sources.py:457-466). | A composite with one local member holding one photo: `get_photo_count()` is 1 but `has_photos()` is False. | has_photos and selection range over the members' combined count. | not executed | CompositeSource.CompositeHasPhotosGap | CompositeSource.IntendedSelectPhotoIndex |
| main.py:219 | `placeholder_shown = not photo_sources.has_photos()` sets the flag when the frame starts without photos. | Start with no photos and stay without: no round draws the placeholder. | The flag starts False, so the placeholder is drawn once. | not executed | MainLoop.StartupFlagHidesPlaceholder | MainLoop.IntendedFlagShowsPlaceholderOnce |
| main.py:141 | A full refresh is forced when `update_count % display.resolution[1] == 0`, the display height. `display.full_refresh_every` is never read. | full_refresh_every = 5, height 1200, count 5: no forced full refresh, and the update is partial. | Force a full refresh every `full_refresh_every` updates. | not executed | MainLoop.HeightRuleIgnoresConfiguredCadence | MainLoop.ConfiguredCadenceRun |

=== FILE: composite.dfy ===
/** `CompositePhotoSource` of src/photo_sources.py: several member sources
    presented as one index space through a table of offsets that is taken
    at rebuild time, while lookups read each member's live count. */
module CompositeSource {
  import opened Util
  import opened PhotoSources

  /** The closed set of member kinds. */
  datatype Member = Local(local: LocalSource) | Cloud(cloud: ICloudSource)

  /** A photo as the combined index space sees it. */
  datatype Item = File(path: Path) | Asset(id: string)

  /** `get_photo_count()` of a member: the length of its own list. */
  function MemberCount(m: Member): nat
  {
    match m
    case Local(s) => |s.catalog.photos|
    case Cloud(s) => |s.catalog.photos|
  }

  function MemberItems(m: Member): (r: seq<Item>)
    ensures |r| == MemberCount(m)
  {
    match m
    case Local(s) => seq(|s.catalog.photos|, i requires 0 <= i < |s.catalog.photos| => File(s.catalog.photos[i]))
    case Cloud(s) => seq(|s.catalog.photos|, i requires 0 <= i < |s.catalog.photos| => Asset(s.catalog.photos[i]))
  }

  function MemberMode(m: Member): SelectionMode
  {
    match m
    case Local(s) => s.catalog.mode
    case Cloud(s) => s.catalog.mode
  }

  /** The sum of the members' counts. */
  function TotalCount(ms: seq<Member>): nat
  {
    if |ms| == 0 then 0 else MemberCount(ms[0]) + TotalCount(ms[1..])
  }

  /** The members' photos one after another: the reference order of the
      combined index space. */
  function Flatten(ms: seq<Member>): (r: seq<Item>)
    ensures |r| == TotalCount(ms)
  {
    if |ms| == 0 then [] else MemberItems(ms[0]) + Flatten(ms[1..])
  }

  lemma {:induction false} TotalCountAppend(a: seq<Member>, b: seq<Member>)
    ensures TotalCount(a + b) == TotalCount(a) + TotalCount(b)
    decreases |a|
  {
    if |a| > 0 {
      assert (a + b)[0] == a[0];
      assert (a + b)[1..] == a[1..] + b;
      TotalCountAppend(a[1..], b);
    } else {
      assert a + b == b;
    }
  }

  /** The count of a prefix grows by one member's count per member. */
  lemma TotalCountStep(ms: seq<Member>, k: nat)
    requires k < |ms|
    ensures TotalCount(ms[..k + 1]) == TotalCount(ms[..k]) + MemberCount(ms[k])
  {
    assert ms[..k + 1] == ms[..k] + [ms[k]];
    TotalCountAppend(ms[..k], [ms[k]]);
    assert [ms[k]][1..] == [];
  }

  /** A longer prefix never counts fewer photos. */
  lemma TotalCountMonotone(ms: seq<Member>, i: nat, j: nat)
    requires i <= j <= |ms|
    ensures TotalCount(ms[..i]) <= TotalCount(ms[..j])
  {
    assert ms[..j] == ms[..i] + ms[i..j];
    TotalCountAppend(ms[..i], ms[i..j]);
  }

  // ---------------------------------------------------------------------------
  // The offset table
  // ---------------------------------------------------------------------------

  /** The offsets of `ms` when the members before them hold `total` photos. */
  function OffsetsFrom(ms: seq<Member>, total: nat): (r: seq<nat>)
    ensures |r| == |ms|
  {
    if |ms| == 0 then [] else [total] + OffsetsFrom(ms[1..], total + MemberCount(ms[0]))
  }

  /** The k-th offset is `total` plus the count of the members before the k-th. */
  lemma {:induction false} OffsetsFromAt(ms: seq<Member>, total: nat)
    ensures forall k :: 0 <= k < |ms| ==> OffsetsFrom(ms, total)[k] == total + TotalCount(ms[..k])
    decreases |ms|
  {
    if |ms| > 0 {
      OffsetsFromAt(ms[1..], total + MemberCount(ms[0]));
      forall k | 0 <= k < |ms|
        ensures OffsetsFrom(ms, total)[k] == total + TotalCount(ms[..k])
      {
        if k == 0 {
          assert ms[..0] == [];
        } else {
          assert ms[..k][1..] == ms[1..][..k - 1];
        }
      }
    }
  }

  /** `_rebuild_index`: the k-th offset is the number of photos the members
      before the k-th hold at rebuild time. */
  function RebuildIndex(ms: seq<Member>): (offsets: seq<nat>)
    ensures |offsets| == |ms|
    ensures forall k :: 0 <= k < |ms| ==> offsets[k] == TotalCount(ms[..k])
  {
    OffsetsFromAt(ms, 0);
    OffsetsFrom(ms, 0)
  }

  /** Rebuilt offsets never decrease, and consecutive offsets differ by the
      earlier member's count. */
  lemma RebuildIndexNondecreasing(ms: seq<Member>, i: nat, j: nat)
    requires i <= j < |ms|
    ensures RebuildIndex(ms)[i] <= RebuildIndex(ms)[j]
    ensures j == i + 1 ==> RebuildIndex(ms)[j] == RebuildIndex(ms)[i] + MemberCount(ms[i])
  {
    TotalCountMonotone(ms, i, j);
    if j == i + 1 {
      TotalCountStep(ms, i);
    }
  }

  // ---------------------------------------------------------------------------
  // The composite
  // ---------------------------------------------------------------------------

  /** The composite: its own inherited catalog (never filled), the members and
      the offsets stored at the last rebuild. */
  datatype Composite = Composite(catalog: Catalog<Path>, members: seq<Member>, offsets: seq<nat>)

  /** The offsets were taken from the members as they are now. */
  predicate Fresh(c: Composite)
  {
    c.offsets == RebuildIndex(c.members)
  }

  /** `CompositePhotoSource.__init__`. */
  function NewComposite(members: seq<Member>): (c: Composite)
    ensures Fresh(c) && c.members == members
    ensures c.catalog.photos == [] && c.catalog.cursor == 0 && c.catalog.mode == Random
  {
    Composite(NewCatalog(), members, RebuildIndex(members))
  }

  /** `get_photo_count()`: the live sum of the members' counts. */
  function CompositeCount(c: Composite): (n: nat)
    ensures n == |Flatten(c.members)|
  {
    TotalCount(c.members)
  }

  /** The inherited `has_photos()`, which reads the composite's own list. */
  predicate CompositeHasPhotos(c: Composite)
  {
    HasPhotos(c.catalog)
  }

  // ---------------------------------------------------------------------------
  // Lookup
  // ---------------------------------------------------------------------------

  predicate Covers(offset: nat, count: nat, index: int)
  {
    offset <= index < offset + count
  }

  function LiveCounts(ms: seq<Member>): (r: seq<nat>)
    ensures |r| == |ms|
    ensures forall k :: 0 <= k < |ms| ==> r[k] == MemberCount(ms[k])
  {
    seq(|ms|, k requires 0 <= k < |ms| => MemberCount(ms[k]))
  }

  /** The scan of `_find_source_for_index` over (offset, live count) pairs:
      the first pair whose interval holds the index, with the local index. */
  function FindIn(offsets: seq<nat>, counts: seq<nat>, index: int): (r: Option<(nat, int)>)
    ensures r.Some? ==>
              && r.value.0 < |offsets| && r.value.0 < |counts|
              && Covers(offsets[r.value.0], counts[r.value.0], index)
              && r.value.1 == index - offsets[r.value.0]
              && forall j :: 0 <= j < r.value.0 ==> !Covers(offsets[j], counts[j], index)
    ensures r.None? ==>
              forall j :: 0 <= j < |offsets| && j < |counts| ==> !Covers(offsets[j], counts[j], index)
    decreases |offsets|
  {
    if |offsets| == 0 || |counts| == 0 then None
    else if Covers(offsets[0], counts[0], index) then Some((0, index - offsets[0]))
    else
      match FindIn(offsets[1..], counts[1..], index)
      case None => None
      case Some(found) => Some((found.0 + 1, found.1))
  }

  /** `_find_source_for_index`: stored offsets against live counts. */
  function FindSourceForIndex(c: Composite, index: int): (r: Option<(nat, int)>)
    ensures r.Some? ==>
              && r.value.0 < |c.members| && r.value.0 < |c.offsets|
              && Covers(c.offsets[r.value.0], MemberCount(c.members[r.value.0]), index)
              && r.value.1 == index - c.offsets[r.value.0]
              && 0 <= r.value.1 < MemberCount(c.members[r.value.0])
              && forall j :: 0 <= j < r.value.0 ==> !Covers(c.offsets[j], MemberCount(c.members[j]), index)
    ensures r.None? ==>
              forall j :: 0 <= j < |c.offsets| && j < |c.members| ==> !Covers(c.offsets[j], MemberCount(c.members[j]), index)
  {
    FindIn(c.offsets, LiveCounts(c.members), index)
  }

  lemma {:induction false} FlattenAppend(a: seq<Member>, b: seq<Member>)
    ensures Flatten(a + b) == Flatten(a) + Flatten(b)
    decreases |a|
  {
    if |a| > 0 {
      assert (a + b)[0] == a[0];
      assert (a + b)[1..] == a[1..] + b;
      FlattenAppend(a[1..], b);
    } else {
      assert a + b == b;
    }
  }

  /** The l-th photo of the k-th member sits after the photos of the
      members before it in the flattened lists. */
  lemma FlattenIndex(ms: seq<Member>, k: nat, l: nat)
    requires k < |ms| && l < MemberCount(ms[k])
    ensures TotalCount(ms[..k]) + l < |Flatten(ms)|
    ensures Flatten(ms)[TotalCount(ms[..k]) + l] == MemberItems(ms[k])[l]
  {
    var before, after := ms[..k], ms[k + 1..];
    assert ms == before + ([ms[k]] + after);
    FlattenAppend(before, [ms[k]] + after);
    FlattenAppend([ms[k]], after);
    assert [ms[k]][1..] == [];
    assert Flatten([ms[k]]) == MemberItems(ms[k]);
  }

  /** Some member's prefix interval holds each index in [0, count): the
      last member whose prefix count does not exceed it. */
  lemma {:induction false} CoveringMember(ms: seq<Member>, i: int, k: nat) returns (m: nat)
    requires k <= |ms| && 0 <= i < TotalCount(ms[..k])
    ensures m < k && TotalCount(ms[..m]) <= i < TotalCount(ms[..m]) + MemberCount(ms[m])
    decreases k
  {
    assert ms[..0] == [];
    TotalCountStep(ms, k - 1);
    if TotalCount(ms[..k - 1]) <= i {
      m := k - 1;
    } else {
      m := CoveringMember(ms, i, k - 1);
    }
  }

  lemma LookupOutside(ms: seq<Member>, i: int)
    requires i < 0 || i >= TotalCount(ms)
    ensures FindIn(RebuildIndex(ms), LiveCounts(ms), i).None?
  {
    var offsets := RebuildIndex(ms);
    var counts := LiveCounts(ms);
    assert ms[..|ms|] == ms;
    forall k | 0 <= k < |ms|
      ensures !Covers(offsets[k], counts[k], i)
    {
      TotalCountStep(ms, k);
      TotalCountMonotone(ms, k + 1, |ms|);
    }
  }

  /** With fresh offsets, every index in [0, count) resolves to a member and
      a local index that name the same photo the flattened member lists hold
      at that position, and every other index resolves to nothing. */
  lemma FreshLookupResolves(c: Composite, i: int)
    requires Fresh(c)
    ensures 0 <= i < CompositeCount(c) ==>
              var r := FindSourceForIndex(c, i);
              r.Some? && MemberItems(c.members[r.value.0])[r.value.1] == Flatten(c.members)[i]
    ensures !(0 <= i < CompositeCount(c)) ==> FindSourceForIndex(c, i).None?
  {
    if 0 <= i < CompositeCount(c) {
      var ms := c.members;
      assert ms[..|ms|] == ms;
      var k := CoveringMember(ms, i, |ms|);
      assert Covers(c.offsets[k], MemberCount(ms[k]), i);
      var r := FindSourceForIndex(c, i);
      FlattenIndex(ms, r.value.0, r.value.1);
    } else {
      LookupOutside(c.members, i);
    }
  }

  /** With fresh offsets no index lies in two members' intervals. */
  lemma FreshIntervalsDisjoint(c: Composite, j: nat, k: nat, i: int)
    requires Fresh(c)
    requires j < k < |c.members|
    requires Covers(c.offsets[j], MemberCount(c.members[j]), i)
    ensures !Covers(c.offsets[k], MemberCount(c.members[k]), i)
  {
    TotalCountStep(c.members, j);
    TotalCountMonotone(c.members, j + 1, k);
  }

  // ---------------------------------------------------------------------------
  // Operations
  // ---------------------------------------------------------------------------

  /** What each member's environment answers on refresh. */
  datatype MemberEnv = MemberEnv(scan: Option<seq<Entry>>, authOk: bool, fetched: Option<seq<string>>)

  function RefreshMember(m: Member, env: MemberEnv): Member
  {
    match m
    case Local(s) => Local(RefreshLocal(s, env.scan))
    case Cloud(s) => Cloud(RefreshICloud(s, env.authOk, env.fetched))
  }

  /** `CompositePhotoSource.refresh`: every member refreshes, then the
      offsets are rebuilt from the new counts. */
  function CompositeRefresh(c: Composite, envs: seq<MemberEnv>): (r: Composite)
    requires |envs| == |c.members|
    ensures Fresh(r)
    ensures r.catalog == c.catalog
    ensures |r.members| == |c.members|
    ensures forall k :: 0 <= k < |c.members| ==> r.members[k] == RefreshMember(c.members[k], envs[k])
  {
    var ms := seq(|c.members|, k requires 0 <= k < |c.members| => RefreshMember(c.members[k], envs[k]));
    Composite(c.catalog, ms, RebuildIndex(ms))
  }

  /** A local member refreshing on its own, as the file watcher makes it do:
      its list changes but the composite's offsets are not rebuilt. */
  function WatcherRefresh(c: Composite, k: nat, scan: Option<seq<Entry>>): (r: Composite)
    requires k < |c.members|
    ensures r.catalog == c.catalog && r.offsets == c.offsets && |r.members| == |c.members|
    ensures forall j :: 0 <= j < |c.members| && j != k ==> r.members[j] == c.members[j]
    ensures c.members[k].Local? ==> r.members[k] == Local(RefreshLocal(c.members[k].local, scan))
    ensures c.members[k].Cloud? ==> r == c
  {
    match c.members[k]
    case Local(s) => c.(members := c.members[k := Local(RefreshLocal(s, scan))])
    case Cloud(_) => c
  }

  /** Stale offsets: one photo in all, yet index 0 finds no member once the
      first member emptied itself without a rebuild. */
  lemma StaleOffsetsMissPhotos()
    ensures exists c: Composite, scan: Option<seq<Entry>> ::
              && Fresh(c) && |c.members| > 0
              && CompositeCount(WatcherRefresh(c, 0, scan)) == 1
              && FindSourceForIndex(WatcherRefresh(c, 0, scan), 0).None?
  {
    var a := LocalSource(Catalog([["a.jpg"]], 0, Random), [], true);
    var b := LocalSource(Catalog([["b.jpg"]], 0, Random), [], true);
    var c := NewComposite([Local(a), Local(b)]);
    assert c.offsets[0] == 0;
    assert c.offsets[1] == 1 by {
      assert c.members[..1] == [Local(a)];
    }
    var scan: Option<seq<Entry>> := Some([]);
    var c' := WatcherRefresh(c, 0, scan);
    var a' := a.(catalog := a.catalog.(photos := []));
    assert c'.members == [Local(a'), Local(b)];
    assert c'.members[1..] == [Local(b)];
    assert TotalCount([Local(b)]) == 1 by {
      assert [Local(b)][1..] == [];
    }
    assert CompositeCount(c') == 1;
    assert FindSourceForIndex(c', 0).None?;
  }

  function SetMemberMode(m: Member, mode: SelectionMode): (r: Member)
    ensures MemberMode(r) == mode && MemberItems(r) == MemberItems(m)
  {
    match m
    case Local(s) => Local(s.(catalog := s.catalog.(mode := mode)))
    case Cloud(s) => Cloud(s.(catalog := s.catalog.(mode := mode)))
  }

  /** `CompositePhotoSource.set_selection_mode`: the argument is resolved
      (an unknown name raises before anything changes) and the same mode is
      set on the composite and on every member; lists and offsets stay. */
  function CompositeSetMode(c: Composite, arg: ModeArg): (r: Result<Composite, ModeError>)
    ensures r.Ok? <==> ResolveMode(arg).Ok?
    ensures r.Ok? ==>
              && r.value.catalog == c.catalog.(mode := ResolveMode(arg).value)
              && r.value.offsets == c.offsets
              && |r.value.members| == |c.members|
              && forall k :: 0 <= k < |c.members| ==>
                   MemberMode(r.value.members[k]) == ResolveMode(arg).value
                   && MemberItems(r.value.members[k]) == MemberItems(c.members[k])
  {
    match SetMode(c.catalog, arg)
    case Err(e) => Err(e)
    case Ok(catalog) =>
      var ms := seq(|c.members|, k requires 0 <= k < |c.members| => SetMemberMode(c.members[k], catalog.mode));
      Ok(Composite(catalog, ms, c.offsets))
  }

  /** The path a lookup produced and the composite afterwards (a cloud
      member may have downloaded into its cache). */
  datatype PathLookup = PathLookup(path: Option<Path>, composite: Composite)

  /** `CompositePhotoSource.get_photo_path`: locate the member, then ask it
      for the local index. */
  function CompositePhotoPath(c: Composite, index: int, download: Download): (r: PathLookup)
    ensures FindSourceForIndex(c, index).None? ==> r == PathLookup(None, c)
    ensures r.composite.catalog == c.catalog && r.composite.offsets == c.offsets
    ensures |r.composite.members| == |c.members|
    ensures forall k :: 0 <= k < |c.members| ==> MemberItems(r.composite.members[k]) == MemberItems(c.members[k])
    ensures FindSourceForIndex(c, index).Some? ==>
              var (k, li) := FindSourceForIndex(c, index).value;
              && (c.members[k].Local? ==> r == PathLookup(LocalPhotoPath(c.members[k].local, li), c))
              && (c.members[k].Cloud? ==>
                    var f := ICloudPhotoPath(c.members[k].cloud, li, download);
                    r.path == f.path && r.composite.members[k] == Cloud(f.source)
                    && forall j :: 0 <= j < |c.members| && j != k ==> r.composite.members[j] == c.members[j])
  {
    match FindSourceForIndex(c, index)
    case None => PathLookup(None, c)
    case Some(found) =>
      match c.members[found.0]
      case Local(s) => PathLookup(LocalPhotoPath(s, found.1), c)
      case Cloud(s) =>
        var f := ICloudPhotoPath(s, found.1, download);
        PathLookup(f.path, c.(members := c.members[found.0 := Cloud(f.source)]))
  }

  /** With fresh offsets, a global index of a local file yields that file's
      path, and one of a cloud asset can only yield that asset's cache file. */
  lemma FreshPathMatchesItem(c: Composite, i: int, download: Download)
    requires Fresh(c) && 0 <= i < CompositeCount(c)
    ensures Flatten(c.members)[i].File? ==>
              CompositePhotoPath(c, i, download).path == Some(Flatten(c.members)[i].path)
    ensures Flatten(c.members)[i].Asset? && CompositePhotoPath(c, i, download).path.Some? ==>
              var p := CompositePhotoPath(c, i, download).path.value;
              |p| > 0 && p[|p| - 1] == CacheFileName(Flatten(c.members)[i].id)
  {
    FreshLookupResolves(c, i);
    var found := FindSourceForIndex(c, i).value;
    match c.members[found.0]
    case Local(s) =>
      assert Flatten(c.members)[i] == File(s.catalog.photos[found.1]);
    case Cloud(s) =>
      assert Flatten(c.members)[i] == Asset(s.catalog.photos[found.1]);
  }

  // ---------------------------------------------------------------------------
  // Selection through the inherited catalog
  // ---------------------------------------------------------------------------

  /** Every composite the class builds keeps its own list empty. */
  predicate OwnListEmpty(c: Composite)
  {
    c.catalog.photos == []
  }

  /** The inherited `select_photo`: select an index on the composite's own
      catalog, then resolve it through `get_photo_path`. */
  method CompositeSelectPhoto(c: Composite, download: Download) returns (path: Option<Path>, c': Composite)
    ensures OwnListEmpty(c) ==> path.None? && c' == c
    ensures OwnListEmpty(c') == OwnListEmpty(c)
  {
    var index, catalog := SelectPhotoIndex(c.catalog);
    c' := c.(catalog := catalog);
    if index.None? {
      path := None;
    } else {
      var r := CompositePhotoPath(c', index.value, download);
      path, c' := r.path, r.composite;
    }
  }

  /** As written, the composite never reports photos: built, refreshed and
      re-moded it keeps an empty own list, even when its members hold
      photos and `get_photo_count()` is positive. */
  lemma CompositeHasPhotosGap(members: seq<Member>, envs: seq<MemberEnv>, arg: ModeArg)
    requires |envs| == |members|
    ensures var c := CompositeRefresh(NewComposite(members), envs);
            && !CompositeHasPhotos(c)
            && (CompositeSetMode(c, arg).Ok? ==> !CompositeHasPhotos(CompositeSetMode(c, arg).value))
    ensures exists c: Composite :: OwnListEmpty(c) && Fresh(c) && CompositeCount(c) > 0 && !CompositeHasPhotos(c)
  {
    var a := LocalSource(Catalog([["a.jpg"]], 0, Random), [], true);
    var c := NewComposite([Local(a)]);
    assert CompositeCount(c) == 1;
  }

  /** What `has_photos()` evidently means for the composite: some member holds
      a photo. */
  predicate IntendedHasPhotos(c: Composite)
  {
    CompositeCount(c) > 0
  }

  /** Selection over the combined index space, as the composite evidently
      intends: a random index in [0, count), or its own cursor modulo the
      live count. With fresh offsets the pick always resolves to a member. */
  method IntendedSelectPhotoIndex(c: Composite) returns (index: Option<nat>, c': Composite)
    requires Fresh(c)
    ensures index.None? <==> !IntendedHasPhotos(c)
    ensures index.Some? ==> index.value < CompositeCount(c) && FindSourceForIndex(c, index.value).Some?
    ensures c.catalog.mode == Sequential && IntendedHasPhotos(c) ==>
              index == Some(c.catalog.cursor % CompositeCount(c))
              && c' == c.(catalog := c.catalog.(cursor := c.catalog.cursor + 1))
    ensures c'.members == c.members && c'.offsets == c.offsets
  {
    var n := CompositeCount(c);
    if n == 0 {
      return None, c;
    }
    if c.catalog.mode == Random {
      var k: nat :| k < n;
      index, c' := Some(k), c;
    } else {
      index := Some(c.catalog.cursor % n);
      c' := c.(catalog := c.catalog.(cursor := c.catalog.cursor + 1));
    }
    FreshLookupResolves(c, index.value);
  }
}

=== FILE: config.dfy ===
/** The configuration of src/config.py: five sections with defaults, the
    parsed TOML document as optional keys per optional section, the merge
    of the two, and validation. Values are typed here, so TOML values of
    the wrong type are outside the model. */
module Config {
  import opened Util

  // ---------------------------------------------------------------------------
  // Sections and their defaults
  // ---------------------------------------------------------------------------

  datatype DisplayConfig = DisplayConfig(refreshInterval: int, fullRefreshEvery: int, saturation: real)
  datatype PhotoConfig = PhotoConfig(localPath: string, selectionMode: string)
  datatype ProcessingConfig = ProcessingConfig(saturation: real, contrast: real, portraitBias: string)
  datatype ICloudConfig = ICloudConfig(enabled: bool, appleId: Option<string>, sessionPath: string)
  datatype LoggingConfig = LoggingConfig(level: string, file: string)

  datatype Config = Config(
    display: DisplayConfig,
    photo: PhotoConfig,
    processing: ProcessingConfig,
    icloud: ICloudConfig,
    logging: LoggingConfig)

  const DefaultRefreshInterval: int := 3600
  const DefaultFullRefreshEvery: int := 10
  const DefaultDisplaySaturation: real := 0.5
  const DefaultLocalPath: string := "~/Photos/Frame"
  const DefaultSelectionMode: string := "random"
  const DefaultProcessingSaturation: real := 1.3
  const DefaultContrast: real := 1.2
  const DefaultPortraitBias: string := "top"
  const DefaultSessionPath: string := "~/.config/inky-photo-frame/icloud_session"
  const DefaultLogLevel: string := "INFO"

  /** `Config()`: every section at its dataclass defaults. */
  function Defaults(): Config
  {
    Config(
      DisplayConfig(DefaultRefreshInterval, DefaultFullRefreshEvery, DefaultDisplaySaturation),
      PhotoConfig(DefaultLocalPath, DefaultSelectionMode),
      ProcessingConfig(DefaultProcessingSaturation, DefaultContrast, DefaultPortraitBias),
      ICloudConfig(false, None, DefaultSessionPath),
      LoggingConfig(DefaultLogLevel, ""))
  }

  // ---------------------------------------------------------------------------
  // The parsed document and `_from_dict`
  // ---------------------------------------------------------------------------

  /** A TOML table: each key present or absent. */
  datatype DisplayTable = DisplayTable(refreshInterval: Option<int>, fullRefreshEvery: Option<int>, saturation: Option<real>)
  datatype PhotoTable = PhotoTable(localPath: Option<string>, selectionMode: Option<string>)
  datatype ProcessingTable = ProcessingTable(saturation: Option<real>, contrast: Option<real>, portraitBias: Option<string>)
  datatype ICloudTable = ICloudTable(enabled: Option<bool>, appleId: Option<string>, sessionPath: Option<string>)
  datatype LoggingTable = LoggingTable(level: Option<string>, file: Option<string>)

  /** The whole document: each section present or absent. */
  datatype Document = Document(
    display: Option<DisplayTable>,
    photo: Option<PhotoTable>,
    processing: Option<ProcessingTable>,
    icloud: Option<ICloudTable>,
    logging: Option<LoggingTable>)

  /** `dict.get(key, default)`. */
  function GetOr<T>(value: Option<T>, default: T): T
  {
    if value.Some? then value.value else default
  }

  /** `icloud.get("apple_id") or None`: an absent or empty Apple ID is none. */
  function AppleIdOf(value: Option<string>): (r: Option<string>)
    ensures r.Some? <==> value.Some? && value.value != ""
    ensures r.Some? ==> r == value
  {
    if value.Some? && value.value != "" then value else None
  }

  /** `Config._from_dict`: a present section is rebuilt from its keys with
      each missing key at its default; an absent section keeps the whole
      default section. */
  function FromDocument(doc: Document): (c: Config)
    ensures doc.display.None? ==> c.display == Defaults().display
    ensures doc.photo.None? ==> c.photo == Defaults().photo
    ensures doc.processing.None? ==> c.processing == Defaults().processing
    ensures doc.icloud.None? ==> c.icloud == Defaults().icloud
    ensures doc.logging.None? ==> c.logging == Defaults().logging
    ensures c.icloud.appleId != Some("")
  {
    var d := Defaults();
    Config(
      match doc.display
      case None => d.display
      case Some(t) => DisplayConfig(
        GetOr(t.refreshInterval, DefaultRefreshInterval),
        GetOr(t.fullRefreshEvery, DefaultFullRefreshEvery),
        GetOr(t.saturation, DefaultDisplaySaturation)),
      match doc.photo
      case None => d.photo
      case Some(t) => PhotoConfig(GetOr(t.localPath, DefaultLocalPath), GetOr(t.selectionMode, DefaultSelectionMode)),
      match doc.processing
      case None => d.processing
      case Some(t) => ProcessingConfig(
        GetOr(t.saturation, DefaultProcessingSaturation),
        GetOr(t.contrast, DefaultContrast),
        GetOr(t.portraitBias, DefaultPortraitBias)),
      match doc.icloud
      case None => d.icloud
      case Some(t) => ICloudConfig(GetOr(t.enabled, false), AppleIdOf(t.appleId), GetOr(t.sessionPath, DefaultSessionPath)),
      match doc.logging
      case None => d.logging
      case Some(t) => LoggingConfig(GetOr(t.level, DefaultLogLevel), GetOr(t.file, "")))
  }

  /** The document that spells out every key of `c`; TOML has no null, so
      an absent Apple ID is written as the empty string, as the template
      does. */
  function ToDocument(c: Config): Document
  {
    Document(
      Some(DisplayTable(Some(c.display.refreshInterval), Some(c.display.fullRefreshEvery), Some(c.display.saturation))),
      Some(PhotoTable(Some(c.photo.localPath), Some(c.photo.selectionMode))),
      Some(ProcessingTable(Some(c.processing.saturation), Some(c.processing.contrast), Some(c.processing.portraitBias))),
      Some(ICloudTable(Some(c.icloud.enabled), Some(GetOr(c.icloud.appleId, "")), Some(c.icloud.sessionPath))),
      Some(LoggingTable(Some(c.logging.level), Some(c.logging.file))))
  }

  /** Writing a configuration out in full and reading it back gives it
      back, unless its Apple ID is the empty string, which reads back as
      none. */
  lemma DocumentRoundTrip(c: Config)
    ensures c.icloud.appleId != Some("") <==> FromDocument(ToDocument(c)) == c
  {
  }

  /** A key of `doc` where it is present, the key of `base` otherwise. */
  function Or<T>(key: Option<T>, base: Option<T>): (r: Option<T>)
    ensures key.Some? ==> r == key
    ensures key.None? ==> r == base
  {
    if key.Some? then key else base
  }

  /** `doc` with every gap filled from `base`: a missing section is taken
      whole, and a missing key of a present section is taken from the
      base's section. */
  function Overlay(doc: Document, base: Document): Document
  {
    Document(
      match (doc.display, base.display)
      case (Some(t), Some(u)) => Some(DisplayTable(Or(t.refreshInterval, u.refreshInterval), Or(t.fullRefreshEvery, u.fullRefreshEvery), Or(t.saturation, u.saturation)))
      case (None, _) => base.display
      case (_, None) => doc.display,
      match (doc.photo, base.photo)
      case (Some(t), Some(u)) => Some(PhotoTable(Or(t.localPath, u.localPath), Or(t.selectionMode, u.selectionMode)))
      case (None, _) => base.photo
      case (_, None) => doc.photo,
      match (doc.processing, base.processing)
      case (Some(t), Some(u)) => Some(ProcessingTable(Or(t.saturation, u.saturation), Or(t.contrast, u.contrast), Or(t.portraitBias, u.portraitBias)))
      case (None, _) => base.processing
      case (_, None) => doc.processing,
      match (doc.icloud, base.icloud)
      case (Some(t), Some(u)) => Some(ICloudTable(Or(t.enabled, u.enabled), Or(t.appleId, u.appleId), Or(t.sessionPath, u.sessionPath)))
      case (None, _) => base.icloud
      case (_, None) => doc.icloud,
      match (doc.logging, base.logging)
      case (Some(t), Some(u)) => Some(LoggingTable(Or(t.level, u.level), Or(t.file, u.file)))
      case (None, _) => base.logging
      case (_, None) => doc.logging)
  }

  /** `_from_dict` reads every key key by key: writing out what it read
      gives back the document with each missing section and each missing
      key of a present section filled in from the written-out defaults, and
      every key present in the document kept (an empty Apple ID is written
      as the empty string again). So a document and its completion read
      the same. */
  lemma FromDocumentFillsGaps(doc: Document)
    ensures ToDocument(FromDocument(doc)) == Overlay(doc, ToDocument(Defaults()))
    ensures FromDocument(Overlay(doc, ToDocument(Defaults()))) == FromDocument(doc)
  {
  }

  /** An empty document, and a document whose sections are all present but
      empty, both give the defaults. */
  lemma EmptyDocumentGivesDefaults()
    ensures FromDocument(Document(None, None, None, None, None)) == Defaults()
    ensures FromDocument(Document(
              Some(DisplayTable(None, None, None)),
              Some(PhotoTable(None, None)),
              Some(ProcessingTable(None, None, None)),
              Some(ICloudTable(None, None, None)),
              Some(LoggingTable(None, None)))) == Defaults()
  {
  }

  // ---------------------------------------------------------------------------
  // `Config.load`
  // ---------------------------------------------------------------------------

  /** What reading the file found: nothing (a template is written and the
      defaults used), text that is not TOML, or a parsed document. */
  datatype FileState = Absent | NotToml | Parsed(doc: Document)

  datatype LoadError = InvalidToml

  /** `Config.load` once the path is found. */
  function Load(file: FileState): (r: Result<Config, LoadError>)
    ensures r.Err? <==> file.NotToml?
    ensures file.Absent? ==> r == Ok(Defaults())
    ensures file.Parsed? ==> r == Ok(FromDocument(file.doc))
  {
    match file
    case Absent => Ok(Defaults())
    case NotToml => Err(InvalidToml)
    case Parsed(doc) => Ok(FromDocument(doc))
  }

  /** A configuration saved in full loads back as itself exactly when its
      Apple ID is not the empty string; a missing file loads as the same
      configuration as a document spelling out every default. */
  lemma LoadRoundTrip(c: Config)
    ensures Load(Parsed(ToDocument(c))) == Ok(c) <==> c.icloud.appleId != Some("")
    ensures Load(Absent) == Load(Parsed(ToDocument(Defaults())))
  {
    DocumentRoundTrip(c);
    DocumentRoundTrip(Defaults());
  }

  // ---------------------------------------------------------------------------
  // Validation
  // ---------------------------------------------------------------------------

  /** One finding of `validate`, in the order it checks them. */
  datatype ConfigError =
    | RefreshIntervalNotPositive
    | FullRefreshEveryNotPositive
    | DisplaySaturationOutOfRange
    | ProcessingSaturationNegative
    | ContrastNegative
    | PortraitBiasUnknown
    | SelectionModeUnknown
    | AppleIdMissing
    | LogLevelUnknown

  /** The position of each check in `validate`. */
  function Rank(e: ConfigError): nat
  {
    match e
    case RefreshIntervalNotPositive => 0
    case FullRefreshEveryNotPositive => 1
    case DisplaySaturationOutOfRange => 2
    case ProcessingSaturationNegative => 3
    case ContrastNegative => 4
    case PortraitBiasUnknown => 5
    case SelectionModeUnknown => 6
    case AppleIdMissing => 7
    case LogLevelUnknown => 8
  }

  /** The message `validate` appends for each finding. */
  function Message(e: ConfigError): string
  {
    match e
    case RefreshIntervalNotPositive => "display.refresh_interval must be positive"
    case FullRefreshEveryNotPositive => "display.full_refresh_every must be positive"
    case DisplaySaturationOutOfRange => "display.saturation must be between 0.0 and 1.0"
    case ProcessingSaturationNegative => "processing.saturation must be non-negative"
    case ContrastNegative => "processing.contrast must be non-negative"
    case PortraitBiasUnknown => "processing.portrait_bias must be 'top' or 'center'"
    case SelectionModeUnknown => "photo.selection_mode must be 'random' or 'sequential'"
    case AppleIdMissing => "icloud.apple_id is required when icloud.enabled is true"
    case LogLevelUnknown => "logging.level must be one of ('DEBUG', 'INFO', 'WARNING', 'ERROR', 'CRITICAL')"
  }

  const LogLevels: set<string> := {"DEBUG", "INFO", "WARNING", "ERROR", "CRITICAL"}

  /** The condition under which `validate` reports each finding. */
  predicate Violated(c: Config, e: ConfigError)
  {
    match e
    case RefreshIntervalNotPositive => c.display.refreshInterval <= 0
    case FullRefreshEveryNotPositive => c.display.fullRefreshEvery <= 0
    case DisplaySaturationOutOfRange => !(0.0 <= c.display.saturation <= 1.0)
    case ProcessingSaturationNegative => c.processing.saturation < 0.0
    case ContrastNegative => c.processing.contrast < 0.0
    case PortraitBiasUnknown => c.processing.portraitBias !in {"top", "center"}
    case SelectionModeUnknown => c.photo.selectionMode !in {"random", "sequential"}
    case AppleIdMissing => c.icloud.enabled && (c.icloud.appleId.None? || c.icloud.appleId.value == "")
    case LogLevelUnknown => ToUpper(c.logging.level) !in LogLevels
  }

  /** The checks in the order `validate` runs them. */
  const Checks: seq<ConfigError> := [
    RefreshIntervalNotPositive, FullRefreshEveryNotPositive, DisplaySaturationOutOfRange,
    ProcessingSaturationNegative, ContrastNegative, PortraitBiasUnknown,
    SelectionModeUnknown, AppleIdMissing, LogLevelUnknown]

  /** Findings whose ranks increase along the list. */
  predicate RanksIncrease(errors: seq<ConfigError>)
  {
    forall i, j :: 0 <= i < j < |errors| ==> Rank(errors[i]) < Rank(errors[j])
  }

  /** Runs `checks` in order and keeps each one `c` violates. */
  function Run(c: Config, checks: seq<ConfigError>): (errors: seq<ConfigError>)
    ensures forall e :: e in errors <==> e in checks && Violated(c, e)
    ensures forall i :: 0 <= i < |errors| ==> errors[i] in checks
    ensures RanksIncrease(checks) ==> RanksIncrease(errors)
  {
    if checks == [] then []
    else
      var tail := Run(c, checks[1..]);
      var errors := (if Violated(c, checks[0]) then [checks[0]] else []) + tail;
      HeadRanksBelowTail(checks);
      errors
  }

  /** In a list with increasing ranks the head ranks below everything
      after it, and the tail's ranks increase too. */
  lemma HeadRanksBelowTail(checks: seq<ConfigError>)
    requires |checks| > 0
    ensures RanksIncrease(checks) ==>
              && RanksIncrease(checks[1..])
              && forall e :: e in checks[1..] ==> Rank(checks[0]) < Rank(e)
  {
    if RanksIncrease(checks) {
      forall i, j | 0 <= i < j < |checks[1..]| ensures Rank(checks[1..][i]) < Rank(checks[1..][j]) {
        assert checks[1..][i] == checks[i + 1] && checks[1..][j] == checks[j + 1];
      }
      forall e | e in checks[1..] ensures Rank(checks[0]) < Rank(e) {
        var k :| 0 <= k < |checks[1..]| && checks[1..][k] == e;
        assert checks[k + 1] == e;
      }
    }
  }

  /** Each check sits at the position its rank names. */
  lemma ChecksAtTheirRanks()
    ensures |Checks| == 9
    ensures forall i :: 0 <= i < |Checks| ==> Rank(Checks[i]) == i
  {
  }

  /** `validate` runs every check there is. */
  lemma EveryFindingIsChecked()
    ensures forall e :: e in Checks
  {
    forall e ensures e in Checks {
      match e
      case RefreshIntervalNotPositive =>
      case FullRefreshEveryNotPositive =>
      case DisplaySaturationOutOfRange =>
      case ProcessingSaturationNegative =>
      case ContrastNegative =>
      case PortraitBiasUnknown =>
      case SelectionModeUnknown =>
      case AppleIdMissing =>
      case LogLevelUnknown =>
    }
  }

  /** `Config.validate`: every violated check is reported once, nothing
      else is, and the findings come in the order of the checks. */
  function Validate(c: Config): (errors: seq<ConfigError>)
    ensures forall e :: e in errors <==> Violated(c, e)
    ensures RanksIncrease(errors)
  {
    EveryFindingIsChecked();
    ChecksAtTheirRanks();
    Run(c, Checks)
  }

  /** `is_valid`. */
  function IsValid(c: Config): bool
  {
    |Validate(c)| == 0
  }

  /** A configuration is valid exactly when every check passes. */
  lemma ValidIffNoCheckViolated(c: Config)
    ensures IsValid(c) <==> forall e :: !Violated(c, e)
  {
    if !IsValid(c) {
      assert Validate(c)[0] in Validate(c);
    }
  }

  /** The defaults pass every check. */
  lemma DefaultsAreValid()
    ensures IsValid(Defaults())
  {
    var d := Defaults();
    assert ToUpper(d.logging.level) == "INFO";
    forall e ensures !Violated(d, e) {
      match e
      case RefreshIntervalNotPositive =>
      case FullRefreshEveryNotPositive =>
      case DisplaySaturationOutOfRange =>
      case ProcessingSaturationNegative =>
      case ContrastNegative =>
      case PortraitBiasUnknown =>
      case SelectionModeUnknown =>
      case AppleIdMissing =>
      case LogLevelUnknown =>
    }
    ValidIffNoCheckViolated(d);
  }
}

=== FILE: display_manager.dfy ===
/** The e-paper display manager of src/display_manager.py. The Inky driver
    is not modelled: each call into it is replaced by the answer it gives
    on each attempt (a detected board, or a failed `show()`), and every
    back-off sleep is recorded instead of slept. */
module DisplayManager {
  import opened Util
  import opened PhotoProcessor

  /** Both retry loops make at most three attempts. */
  const MaxAttempts: nat := 3

  /** The first back-off delay, in seconds. */
  const BaseDelay: nat := 1

  /** `show` decides on a full refresh every this many updates. */
  const FullRefreshCadence: nat := 10

  function Pow2(n: nat): (r: nat)
    ensures r >= 1
  {
    if n == 0 then 1 else 2 * Pow2(n - 1)
  }

  /** The sleep after the failed attempt number `attempt` (1-based):
      `base_delay * 2 ** (attempt - 1)`. */
  function Backoff(attempt: nat): nat
    requires attempt >= 1
  {
    BaseDelay * Pow2(attempt - 1)
  }

  // ---------------------------------------------------------------------------
  // The retry loop shared by `_initialize_display` and `show`
  // ---------------------------------------------------------------------------

  /** What a retry loop did: the value of the first attempt that worked (if
      any), how many attempts it made, and the sleeps between them. */
  datatype Retry<T> = Retry(value: Option<T>, attempts: nat, sleeps: seq<nat>)

  /** The loop from attempt number `attempt` on, where `answers[k]` is what
      attempt `k + 1` yields (`None` when it raises). It stops at the first
      attempt that works, sleeps after every failure but the last, and
      gives up after the third. */
  function RetryFrom<T>(answers: seq<Option<T>>, attempt: nat): (r: Retry<T>)
    requires |answers| == MaxAttempts && 1 <= attempt <= MaxAttempts
    ensures attempt <= r.attempts <= MaxAttempts
    ensures r.value == answers[r.attempts - 1]
    ensures r.value.None? ==> r.attempts == MaxAttempts
    ensures forall j :: attempt - 1 <= j < r.attempts - 1 ==> answers[j].None?
    ensures |r.sleeps| == r.attempts - attempt
    ensures forall j :: 0 <= j < |r.sleeps| ==> r.sleeps[j] == Backoff(attempt + j)
    decreases MaxAttempts - attempt
  {
    match answers[attempt - 1]
    case Some(v) => Retry(Some(v), attempt, [])
    case None =>
      if attempt < MaxAttempts then
        var rest := RetryFrom(answers, attempt + 1);
        Retry(rest.value, rest.attempts, [Backoff(attempt)] + rest.sleeps)
      else Retry(None, attempt, [])
  }

  function RetryAll<T>(answers: seq<Option<T>>): Retry<T>
    requires |answers| == MaxAttempts
  {
    RetryFrom(answers, 1)
  }

  /** The loop succeeds exactly when some attempt works, and then it yields
      the first one that does. */
  lemma RetryYieldsFirstSuccess<T>(answers: seq<Option<T>>)
    requires |answers| == MaxAttempts
    ensures RetryAll(answers).value.Some? <==> exists k :: 0 <= k < MaxAttempts && answers[k].Some?
    ensures RetryAll(answers).value.Some? ==>
              var k := RetryAll(answers).attempts - 1;
              && answers[k].Some?
              && (forall j :: 0 <= j < k ==> answers[j].None?)
              && |RetryAll(answers).sleeps| == k
  {
  }

  /** When every attempt fails the loop sleeps one second, then two, and
      gives up after the third attempt. */
  lemma RetryAllFailSleeps<T>(answers: seq<Option<T>>)
    requires |answers| == MaxAttempts
    requires forall k :: 0 <= k < MaxAttempts ==> answers[k].None?
    ensures RetryAll(answers).value.None?
    ensures RetryAll(answers).attempts == 3
    ensures RetryAll(answers).sleeps == [1, 2]
  {
    var r := RetryAll(answers);
    assert |r.sleeps| == 2;
    assert r.sleeps[0] == Backoff(1) == 1;
    assert r.sleeps[1] == Backoff(2) == 2;
  }

  // ---------------------------------------------------------------------------
  // DisplayManager
  // ---------------------------------------------------------------------------

  /** An image handed to the driver with the saturation it was given. */
  datatype Staged = Staged(image: Image, saturation: real)

  /** The manager's state; `detected` says whether `_display` holds a
      driver, and `staged` is the driver's current image. */
  datatype Manager = Manager(
    detected: bool,
    updateCount: nat,
    width: nat,
    height: nat,
    saturation: real,
    staged: Option<Staged>)

  /** The constructor: no driver yet, a 1600x1200 default resolution,
      saturation 0.5, no updates. */
  function NewManager(): Manager
  {
    Manager(false, 0, 1600, 1200, 0.5, None)
  }

  /** What `inky.auto.auto()` reports when it finds a board. */
  datatype Detection = Detection(width: nat, height: nat)

  datatype InitOutcome = InitOutcome(manager: Manager, ok: bool, sleeps: seq<nat>)

  /** `_initialize_display`: the first detection that works sets the
      driver and the resolution; after three failures it raises and the
      manager is unchanged. */
  function InitializeDisplay(m: Manager, answers: seq<Option<Detection>>): (r: InitOutcome)
    requires |answers| == MaxAttempts
    ensures r.ok <==> exists k :: 0 <= k < MaxAttempts && answers[k].Some?
    ensures r.ok ==>
              exists k :: 0 <= k < MaxAttempts && answers[k].Some?
                && (forall j :: 0 <= j < k ==> answers[j].None?)
                && r.manager == m.(detected := true, width := answers[k].value.width, height := answers[k].value.height)
                && |r.sleeps| == k
    ensures !r.ok ==> r.manager == m && r.sleeps == [1, 2]
  {
    var retry := RetryAll(answers);
    RetryYieldsFirstSuccess(answers);
    match retry.value
    case Some(d) => InitOutcome(m.(detected := true, width := d.width, height := d.height), true, retry.sleeps)
    case None =>
      RetryAllFailSleeps(answers);
      InitOutcome(m, false, retry.sleeps)
  }

  /** The class-level `_instance` slot after a `get_instance` call, the
      instance handed back (`None` when the call raised), and the sleeps. */
  datatype InstanceOutcome = InstanceOutcome(slot: Option<Manager>, instance: Option<Manager>, sleeps: seq<nat>)

  /** `get_instance`: an existing instance is returned untouched. Otherwise
      the constructor raises when the Inky library is missing, leaving the
      slot empty; else the new manager is stored in the slot BEFORE the
      display is initialised, so a failed initialisation raises but leaves
      an undetected manager behind. */
  function GetInstance(slot: Option<Manager>, inkyAvailable: bool, answers: seq<Option<Detection>>): (r: InstanceOutcome)
    requires |answers| == MaxAttempts
    ensures slot.Some? ==> r == InstanceOutcome(slot, slot, [])
    ensures slot.None? && !inkyAvailable ==> r.slot.None? && r.instance.None?
    ensures slot.None? && inkyAvailable ==>
              && r.slot.Some? && r.slot.value.updateCount == 0 && r.slot.value.staged.None?
              && (r.instance.Some? <==> r.slot.value.detected)
              && (r.instance.Some? <==> exists k :: 0 <= k < MaxAttempts && answers[k].Some?)
              && (r.instance.Some? ==> r.instance == r.slot)
    ensures slot.None? && inkyAvailable ==>
              && r.slot.value.saturation == 0.5
              && (r.instance.None? ==> r.slot.value.width == 1600 && r.slot.value.height == 1200 && r.sleeps == [1, 2])
              && (r.instance.Some? ==>
                    exists k :: 0 <= k < MaxAttempts && answers[k].Some?
                      && (forall j :: 0 <= j < k ==> answers[j].None?)
                      && r.slot.value.width == answers[k].value.width
                      && r.slot.value.height == answers[k].value.height
                      && |r.sleeps| == k)
  {
    if slot.Some? then InstanceOutcome(slot, slot, [])
    else if !inkyAvailable then InstanceOutcome(None, None, [])
    else
      var init := InitializeDisplay(NewManager(), answers);
      InstanceOutcome(Some(init.manager), if init.ok then Some(init.manager) else None, init.sleeps)
  }

  /** Once a call has filled the slot, every later call returns what the
      slot holds, whatever the board does, and makes no attempt. */
  lemma GetInstanceReturnsSlot(slot: Option<Manager>, inkyAvailable: bool, first: seq<Option<Detection>>,
                               inkyLater: bool, later: seq<Option<Detection>>)
    requires |first| == MaxAttempts && |later| == MaxAttempts
    requires GetInstance(slot, inkyAvailable, first).slot.Some?
    ensures var s := GetInstance(slot, inkyAvailable, first).slot;
            var again := GetInstance(s, inkyLater, later);
            again.instance == s && again.slot == s && again.sleeps == []
  {
  }

  /** A first call whose initialisation fails leaves a manager behind that a
      second call hands out without raising, although it has no driver. */
  lemma FailedInitLeavesUndetectedInstance(first: seq<Option<Detection>>, later: seq<Option<Detection>>)
    requires |first| == MaxAttempts && |later| == MaxAttempts
    requires forall k :: 0 <= k < MaxAttempts ==> first[k].None?
    ensures GetInstance(None, true, first).instance.None?
    ensures var again := GetInstance(GetInstance(None, true, first).slot, true, later);
            again.instance.Some? && !again.instance.value.detected
  {
  }

  /** `set_saturation`: the value is clamped into [0, 1]. */
  function SetSaturation(m: Manager, saturation: real): (r: Manager)
    ensures 0.0 <= r.saturation <= 1.0
    ensures 0.0 <= saturation <= 1.0 ==> r.saturation == saturation
    ensures saturation < 0.0 ==> r.saturation == 0.0
    ensures saturation > 1.0 ==> r.saturation == 1.0
    ensures r == m.(saturation := r.saturation)
  {
    var upper := if saturation < 1.0 then saturation else 1.0;
    m.(saturation := if 0.0 < upper then upper else 0.0)
  }

  datatype SetOutcome = SetOutcome(manager: Manager, ok: bool)

  /** `set_image`: an override saturation is stored as given, without the
      clamping `set_saturation` applies, and before the driver is touched;
      with no driver the call raises after that store. */
  function SetImage(m: Manager, image: Image, saturation: Option<real>): (r: SetOutcome)
    ensures r.manager.saturation == (if saturation.Some? then saturation.value else m.saturation)
    ensures r.ok <==> m.detected
    ensures r.ok ==> r.manager == m.(saturation := r.manager.saturation, staged := Some(Staged(image, r.manager.saturation)))
    ensures !r.ok ==> r.manager == m.(saturation := r.manager.saturation)
  {
    var m1 := if saturation.Some? then m.(saturation := saturation.value) else m;
    if m1.detected then SetOutcome(m1.(staged := Some(Staged(image, m1.saturation))), true)
    else SetOutcome(m1, false)
  }

  /** The two ways of setting the saturation agree exactly inside [0, 1]:
      outside it `set_image` stores the override as given while
      `set_saturation` clamps it (2.0 is stored as 1.0). */
  lemma SaturationOverrideIsNotClamped(m: Manager, image: Image, s: real)
    ensures SetImage(m, image, Some(s)).manager.saturation == s
    ensures SetSaturation(m, s).saturation == SetImage(m, image, Some(s)).manager.saturation <==> 0.0 <= s <= 1.0
    ensures SetSaturation(m, 2.0).saturation == 1.0
  {
  }

  /** What a `show` (or `update`) call did: the manager afterwards, whether
      it returned normally, whether it chose a full refresh, and the
      sleeps between attempts. */
  datatype ShowOutcome = ShowOutcome(manager: Manager, ok: bool, fullRefresh: bool, sleeps: seq<nat>)

  /** `show`: the full-refresh decision is taken once, before any attempt:
      forced, or every tenth update counting from zero. An attempt works
      when there is a driver and its `show()` returns (`answers[k]`). A
      success counts one update; three failures re-raise and change
      nothing. */
  function Show(m: Manager, force: bool, answers: seq<bool>): (r: ShowOutcome)
    requires |answers| == MaxAttempts
    ensures r.fullRefresh == (force || m.updateCount % FullRefreshCadence == 0)
    ensures r.ok <==> m.detected && true in answers
    ensures r.ok ==> r.manager == m.(updateCount := m.updateCount + 1)
    ensures r.ok ==> |r.sleeps| < MaxAttempts && forall j :: 0 <= j < |r.sleeps| ==> !answers[j]
    ensures r.ok ==> answers[|r.sleeps|] && forall j :: 0 <= j < |r.sleeps| ==> r.sleeps[j] == Backoff(j + 1)
    ensures !r.ok ==> r.manager == m && r.sleeps == [1, 2]
  {
    var needsFull := force || m.updateCount % FullRefreshCadence == 0;
    var attempts := seq(MaxAttempts, k requires 0 <= k < MaxAttempts => if m.detected && answers[k] then Some(()) else None);
    var retry := RetryAll(attempts);
    RetryYieldsFirstSuccess(attempts);
    if retry.value.Some? then
      ShowOutcome(m.(updateCount := m.updateCount + 1), true, needsFull, retry.sleeps)
    else
      RetryAllFailSleeps(attempts);
      ShowOutcome(m, false, needsFull, retry.sleeps)
  }

  /** `update`: `set_image` with the current saturation, then `show`. With
      no driver `set_image` raises first, so nothing is retried. */
  function Update(m: Manager, image: Image, force: bool, answers: seq<bool>): (r: ShowOutcome)
    requires |answers| == MaxAttempts
    ensures r.ok <==> m.detected && true in answers
    ensures r.ok ==> r.manager == m.(updateCount := m.updateCount + 1, staged := Some(Staged(image, m.saturation)))
    ensures r.ok ==> r.fullRefresh == (force || m.updateCount % FullRefreshCadence == 0)
    ensures !r.ok ==> r.manager.updateCount == m.updateCount && r.manager.saturation == m.saturation
    ensures !m.detected ==> r.manager == m && r.sleeps == []
    ensures m.detected && !r.ok ==> r.manager == m.(staged := Some(Staged(image, m.saturation))) && r.sleeps == [1, 2]
  {
    var staged := SetImage(m, image, None);
    if !staged.ok then ShowOutcome(staged.manager, false, false, [])
    else Show(staged.manager, force, answers)
  }

  /** `reset_update_count`. */
  function ResetUpdateCount(m: Manager): (r: Manager)
    ensures r.updateCount == 0 && r == m.(updateCount := 0)
  {
    m.(updateCount := 0)
  }

  /** After a reset the next show is a full refresh. */
  lemma ResetForcesFullRefresh(m: Manager, answers: seq<bool>)
    requires |answers| == MaxAttempts
    ensures Show(ResetUpdateCount(m), false, answers).fullRefresh
  {
  }

  /** A white canvas, or the "No Photos Found" placeholder, at the
      display's resolution. */
  function BlankCanvas(m: Manager): Image
  {
    Image(m.width, m.height, RGB, false, [])
  }

  function Placeholder(m: Manager): Image
  {
    Image(m.width, m.height, RGB, false, [Drawn])
  }

  /** `clear`: nothing at all without a driver, else a forced full update
      with a white canvas. */
  function Clear(m: Manager, answers: seq<bool>): (r: ShowOutcome)
    requires |answers| == MaxAttempts
    ensures !m.detected ==> r.manager == m && r.ok
    ensures m.detected ==> (r.ok <==> true in answers) && (r.ok ==> r.fullRefresh)
    ensures m.detected && r.ok ==> r.manager.staged == Some(Staged(BlankCanvas(m), m.saturation))
  {
    if !m.detected then ShowOutcome(m, true, false, [])
    else Update(m, BlankCanvas(m), true, answers)
  }

  /** `show_no_photos_message`: a forced full update with the placeholder
      drawn at the display's resolution. */
  function ShowNoPhotosMessage(m: Manager, answers: seq<bool>): (r: ShowOutcome)
    requires |answers| == MaxAttempts
    ensures r.ok <==> m.detected && true in answers
    ensures r.ok ==> r.fullRefresh && r.manager.staged == Some(Staged(Placeholder(m), m.saturation))
    ensures r.ok ==> r.manager.staged.value.image.width == m.width && r.manager.staged.value.image.height == m.height
  {
    Update(m, Placeholder(m), true, answers)
  }

  // ---------------------------------------------------------------------------
  // Refresh cadence
  // ---------------------------------------------------------------------------

  /** The full-refresh decisions of `n` successive unforced shows that all
      succeed at the first attempt. */
  function RefreshDecisions(m: Manager, n: nat): (r: seq<bool>)
    requires m.detected
    ensures |r| == n
    decreases n
  {
    if n == 0 then []
    else
      var s := Show(m, false, [true, true, true]);
      [s.fullRefresh] + RefreshDecisions(s.manager, n - 1)
  }

  /** Unforced shows refresh fully exactly when the update count is a
      multiple of ten at the time: updates 0, 10, 20, ... */
  lemma {:induction false} FullRefreshEveryTenth(m: Manager, n: nat)
    requires m.detected
    decreases n
    ensures forall j :: 0 <= j < n ==> RefreshDecisions(m, n)[j] == ((m.updateCount + j) % FullRefreshCadence == 0)
  {
    if n > 0 {
      var s := Show(m, false, [true, true, true]);
      assert true in [true, true, true];
      FullRefreshEveryTenth(s.manager, n - 1);
      forall j | 0 <= j < n
        ensures RefreshDecisions(m, n)[j] == ((m.updateCount + j) % FullRefreshCadence == 0)
      {
        if j > 0 {
          assert RefreshDecisions(m, n)[j] == RefreshDecisions(s.manager, n - 1)[j - 1];
        }
      }
    }
  }
}

=== FILE: main_loop.dfy ===
/** The start-up sequence and the main loop of main.py. The photo sources
    appear here only through what the loop asks of them (`has_photos` and
    the photo `select_photo` picks); their behaviour is modelled in
    PhotoSources and CompositeSource, and the two are joined by the run
    lemmas at the end. Sleeps and signals are not modelled: the loop is a
    sequence of rounds, one per refresh interval. */
module MainLoop {
  import opened Util
  import opened PhotoSources
  import opened CompositeSource
  import opened PhotoProcessor
  import opened DisplayManager
  import Config

  // ---------------------------------------------------------------------------
  // Start-up
  // ---------------------------------------------------------------------------

  /** Where start-up ends: an exit code, or the loop about to start with
      the display and the processor built for it. */
  datatype Startup = Exit(code: int) | Started(config: Config.Config, display: Manager, processor: Processor)

  /** `main` up to the loop: a configuration that fails to load or to
      validate, a missing Inky library, or a display that cannot be
      initialised all end with exit code 1. Otherwise the display takes the
      configured saturation and the processor is sized to the display. */
  function StartUp(load: Result<Config.Config, Config.LoadError>, inkyAvailable: bool, answers: seq<Option<Detection>>): (r: Startup)
    requires |answers| == MaxAttempts
    ensures r.Exit? ==> r.code == 1
    ensures r.Started? <==>
              && load.Ok? && Config.IsValid(load.value) && inkyAvailable
              && exists k :: 0 <= k < MaxAttempts && answers[k].Some?
    ensures r.Started? ==>
              && r.config == load.value
              && r.display.detected && r.display.updateCount == 0
              && r.display.saturation == r.config.display.saturation
              && r.processor == Processor(r.display.width, r.display.height, r.config.processing.saturation,
                                          r.config.processing.contrast, r.config.processing.portraitBias)
  {
    if load.Err? then Exit(1)
    else if !Config.IsValid(load.value) then Exit(1)
    else if !inkyAvailable then Exit(1)
    else
      var config := load.value;
      var got := GetInstance(None, true, answers);
      if got.instance.None? then Exit(1)
      else
        Config.ValidIffNoCheckViolated(config);
        assert !Config.Violated(config, Config.DisplaySaturationOutOfRange);
        var display := SetSaturation(got.instance.value, config.display.saturation);
        Started(config, display, Processor(display.width, display.height, config.processing.saturation,
                                           config.processing.contrast, config.processing.portraitBias))
  }

  // ---------------------------------------------------------------------------
  // display_next_photo
  // ---------------------------------------------------------------------------

  /** How `display_next_photo` decides to force a full refresh: as written
      it tests the update count against the display HEIGHT; the
      configuration's `full_refresh_every` is what it evidently meant. */
  datatype ForceRule = ByHeight | Every(updates: int)

  /** The forced-refresh decision, or `None` when the modulus is zero and
      Python's `%` raises. */
  function ForceFull(d: Manager, rule: ForceRule): (r: Option<bool>)
    ensures rule.ByHeight? ==> (r.Some? <==> d.height != 0)
    ensures rule.ByHeight? && r.Some? ==> (r.value <==> d.updateCount % d.height == 0)
    ensures rule.Every? ==> (r.Some? <==> rule.updates != 0)
    ensures rule.Every? && rule.updates > 0 && r.Some? ==> (r.value <==> d.updateCount % rule.updates == 0)
  {
    match rule
    case ByHeight => if d.height == 0 then None else Some(d.updateCount % d.height == 0)
    case Every(n) => if n == 0 then None else Some(d.updateCount % n == 0)
  }

  /** What the outside world answers while one photo is shown: the file the
      selected path holds, whether its colour profile converts, and the
      driver's answers to `show()`. */
  datatype PhotoTurn = PhotoTurn(file: ImageFile, transformOk: bool, showAnswers: seq<bool>)

  /** The result of `display_next_photo`, and the display afterwards. */
  datatype Attempt = Attempt(shown: bool, display: Manager, fullRefresh: bool)

  /** `display_next_photo`: gives up without touching the display when
      there are no photos, nothing is selected, or the file does not load;
      any exception in processing or display is caught and reported as
      False. A photo is shown exactly when all of these succeed. */
  function DisplayNextPhoto(d: Manager, p: Processor, rule: ForceRule, hasPhotos: bool, selected: Option<Path>,
                            turn: PhotoTurn): (r: Attempt)
    requires |turn.showAnswers| == MaxAttempts
    ensures r.shown <==>
              && hasPhotos && selected.Some?
              && ProcessFile(p, turn.file, turn.transformOk).Ok?
              && ProcessFile(p, turn.file, turn.transformOk).value.Some?
              && ForceFull(d, rule).Some?
              && d.detected && true in turn.showAnswers
    ensures r.shown ==>
              var img := ProcessFile(p, turn.file, turn.transformOk).value.value;
              && r.display == d.(updateCount := d.updateCount + 1, staged := Some(Staged(img, d.saturation)))
              && r.fullRefresh == (ForceFull(d, rule).value || d.updateCount % FullRefreshCadence == 0)
              && img.width == p.targetWidth && img.height == p.targetHeight
    ensures !r.shown ==> r.display.updateCount == d.updateCount && r.display.saturation == d.saturation
    ensures !hasPhotos || selected.None? ==> r.display == d
  {
    if !hasPhotos || selected.None? then Attempt(false, d, false)
    else
      match ProcessFile(p, turn.file, turn.transformOk)
      case Err(_) => Attempt(false, d, false)
      case Ok(None) => Attempt(false, d, false)
      case Ok(Some(img)) =>
        match ForceFull(d, rule)
        case None => Attempt(false, d, false)
        case Some(force) =>
          var u := Update(d, img, force, turn.showAnswers);
          Attempt(u.ok, u.manager, u.fullRefresh)
  }

  /** As written, a display 1200 pixels high with `full_refresh_every = 5`
      does not force a full refresh at the fifth update, and the result is
      a partial refresh. */
  lemma HeightRuleIgnoresConfiguredCadence(img: Image)
    ensures var d := Manager(true, 5, 1600, 1200, 0.5, None);
            && ForceFull(d, ByHeight) == Some(false)
            && !Update(d, img, false, [true, true, true]).fullRefresh
            && ForceFull(d, Every(5)) == Some(true)
  {
    var d := Manager(true, 5, 1600, 1200, 0.5, None);
    assert true in [true, true, true];
  }

  /** The modulus a rule tests the update count against. */
  function Cadence(d: Manager, rule: ForceRule): int
  {
    match rule
    case ByHeight => d.height
    case Every(n) => n
  }

  /** Whether the update numbered `count` is a full refresh under a cadence
      of `m`: forced by the rule, or chosen by `show` itself every tenth
      update. */
  predicate RefreshesFully(count: int, m: int)
    requires m > 0
  {
    count % m == 0 || count % FullRefreshCadence == 0
  }

  // ---------------------------------------------------------------------------
  // The main loop
  // ---------------------------------------------------------------------------

  /** The loop's own state: the placeholder flag and the display. */
  datatype LoopState = LoopState(placeholderShown: bool, display: Manager)

  /** What one round did on the screen. */
  datatype Action = PhotoAttempt(shown: bool, fullRefresh: bool) | PlaceholderDrawn | Waited

  /** One round's outcome: the next state and what was done, or the fatal
      error that ends `main` with exit code 1. */
  datatype RoundResult = Continue(state: LoopState, action: Action) | Fatal

  /** What a round learns from the sources after their refresh. */
  datatype RoundInput = RoundInput(hasPhotos: bool, selected: Option<Path>, turn: PhotoTurn)

  predicate WellFormedInput(input: RoundInput)
  {
    |input.turn.showAnswers| == MaxAttempts
  }

  /** One pass of the `while` body after `photo_sources.refresh()`: with
      photos, show one and clear the flag; without, draw the placeholder
      unless the flag says it is up, then set the flag. A failure to draw
      the placeholder escapes to the outer handler. */
  function Round(st: LoopState, p: Processor, rule: ForceRule, input: RoundInput): (r: RoundResult)
    requires WellFormedInput(input)
    ensures input.hasPhotos ==> r.Continue? && !r.state.placeholderShown && r.action.PhotoAttempt?
    ensures !input.hasPhotos && st.placeholderShown ==> r == Continue(st, Waited)
    ensures !input.hasPhotos && !st.placeholderShown ==>
              (r.Fatal? <==> !(st.display.detected && true in input.turn.showAnswers))
    ensures !input.hasPhotos && !st.placeholderShown && r.Continue? ==>
              && r.state.placeholderShown && r.action == PlaceholderDrawn
              && r.state.display.staged == Some(Staged(Placeholder(st.display), st.display.saturation))
  {
    if input.hasPhotos then
      var a := DisplayNextPhoto(st.display, p, rule, true, input.selected, input.turn);
      Continue(LoopState(false, a.display), PhotoAttempt(a.shown, a.fullRefresh))
    else if !st.placeholderShown then
      var u := ShowNoPhotosMessage(st.display, input.turn.showAnswers);
      if !u.ok then Fatal else Continue(LoopState(true, u.manager), PlaceholderDrawn)
    else Continue(st, Waited)
  }

  /** The state and actions after a sequence of rounds; `None` once a round
      was fatal. */
  datatype RunResult = RunResult(state: Option<LoopState>, actions: seq<Action>)

  function Run(st: LoopState, p: Processor, rule: ForceRule, inputs: seq<RoundInput>): (r: RunResult)
    requires forall i :: 0 <= i < |inputs| ==> WellFormedInput(inputs[i])
    ensures |r.actions| <= |inputs|
    ensures r.state.Some? ==> |r.actions| == |inputs|
    ensures r.state.None? ==> |r.actions| < |inputs|
    ensures |inputs| > 0 ==> (Round(st, p, rule, inputs[0]).Fatal? <==> r == RunResult(None, []))
    ensures |inputs| > 0 && Round(st, p, rule, inputs[0]).Continue? ==>
              |r.actions| > 0 && r.actions[0] == Round(st, p, rule, inputs[0]).action
    decreases |inputs|
  {
    if inputs == [] then RunResult(Some(st), [])
    else
      match Round(st, p, rule, inputs[0])
      case Fatal => RunResult(None, [])
      case Continue(next, action) =>
        var rest := Run(next, p, rule, inputs[1..]);
        RunResult(rest.state, [action] + rest.actions)
  }

  /** A round with photos whose selected file loads and has pixels, and
      whose `show()` succeeds on some attempt. */
  predicate GoodPhotoRound(input: RoundInput)
  {
    && WellFormedInput(input)
    && input.hasPhotos && input.selected.Some?
    && input.turn.file.Readable? && input.turn.file.width > 0 && input.turn.file.height > 0
    && true in input.turn.showAnswers
  }

  /** One successful photo round: the photo is shown, the count advances,
      and the refresh is full exactly at a multiple of the cadence or of
      ten. */
  lemma GoodRound(st: LoopState, p: Processor, rule: ForceRule, input: RoundInput)
    requires p.targetWidth > 0 && p.targetHeight > 0
    requires st.display.detected && Cadence(st.display, rule) > 0
    requires WellFormedInput(input) && GoodPhotoRound(input)
    ensures var r := Round(st, p, rule, input);
            && r.Continue?
            && r.state.display.detected
            && r.state.display.updateCount == st.display.updateCount + 1
            && Cadence(r.state.display, rule) == Cadence(st.display, rule)
            && r.action == PhotoAttempt(true, RefreshesFully(st.display.updateCount, Cadence(st.display, rule)))
  {
    GoodAttempt(st.display, p, rule, input.selected.value, input.turn);
  }

  /** `display_next_photo` on a good round: the photo is shown, the count
      grows by one, and the refresh is full exactly at a multiple of the
      cadence or of ten. */
  lemma GoodAttempt(d: Manager, p: Processor, rule: ForceRule, selected: Path, turn: PhotoTurn)
    requires p.targetWidth > 0 && p.targetHeight > 0
    requires d.detected && Cadence(d, rule) > 0
    requires |turn.showAnswers| == MaxAttempts && true in turn.showAnswers
    requires turn.file.Readable? && turn.file.width > 0 && turn.file.height > 0
    ensures var a := DisplayNextPhoto(d, p, rule, true, Some(selected), turn);
            && a.shown
            && a.display.detected && a.display.height == d.height
            && a.display.updateCount == d.updateCount + 1
            && a.fullRefresh == RefreshesFully(d.updateCount, Cadence(d, rule))
  {
    var processed := ProcessFile(p, turn.file, turn.transformOk);
    assert LoadImage(turn.file).Some?;
    assert processed.Ok? && processed.value.Some?;
    assert ForceFull(d, rule) == Some(d.updateCount % Cadence(d, rule) == 0);
  }

  /** A run whose first round continues is that round followed by the run
      from the state it leaves. */
  lemma RunStep(st: LoopState, p: Processor, rule: ForceRule, inputs: seq<RoundInput>)
    requires forall i :: 0 <= i < |inputs| ==> WellFormedInput(inputs[i])
    requires |inputs| > 0 && Round(st, p, rule, inputs[0]).Continue?
    ensures var first := Round(st, p, rule, inputs[0]);
            var rest := Run(first.state, p, rule, inputs[1..]);
            Run(st, p, rule, inputs) == RunResult(rest.state, [first.action] + rest.actions)
  {
  }

  /** The attempts `n` successful photo rounds make from update `count`
      under a cadence of `m`, one after the other. */
  function Attempts(count: int, m: int, n: nat): (r: seq<Action>)
    requires m > 0
    ensures |r| == n
    decreases n
  {
    if n == 0 then [] else [PhotoAttempt(true, RefreshesFully(count, m))] + Attempts(count + 1, m, n - 1)
  }

  /** The `j`-th of those attempts is shown, and is a full refresh exactly
      when update `count + j` is. */
  lemma {:induction false} AttemptsAt(count: int, m: int, n: nat, j: int)
    requires m > 0 && 0 <= j < n
    ensures Attempts(count, m, n)[j] == PhotoAttempt(true, RefreshesFully(count + j, m))
    decreases n
  {
    if j > 0 {
      AttemptsAt(count + 1, m, n - 1, j - 1);
      assert count + 1 + (j - 1) == count + j;
    }
  }

  /** The expected attempts are the one at `count` followed by those from
      `count + 1`. */
  lemma AttemptsStep(count: int, m: int, n: nat)
    requires m > 0 && n > 0
    ensures Attempts(count, m, n) == [PhotoAttempt(true, RefreshesFully(count, m))] + Attempts(count + 1, m, n - 1)
  {
  }

  /** The rounds after the first of a run of good rounds are good. */
  lemma GoodTail(inputs: seq<RoundInput>)
    requires |inputs| > 0
    requires forall i :: 0 <= i < |inputs| ==> WellFormedInput(inputs[i])
    requires forall i :: 0 <= i < |inputs| ==> GoodPhotoRound(inputs[i])
    ensures forall i :: 0 <= i < |inputs[1..]| ==> WellFormedInput(inputs[1..][i])
    ensures forall i :: 0 <= i < |inputs[1..]| ==> GoodPhotoRound(inputs[1..][i])
  {
    assert forall i :: 0 <= i < |inputs[1..]| ==> inputs[1..][i] == inputs[i + 1];
  }

  /** A run that is the attempt at `count` followed by the attempts from
      `count + 1` is the attempts from `count`. */
  lemma ConsAttempts(r: RunResult, rest: RunResult, action: Action, count: int, m: int, n: nat,
                     count': int, m': int, n': nat)
    requires m > 0 && n > 0 && count' == count + 1 && m' == m && n' == n - 1
    requires r == RunResult(rest.state, [action] + rest.actions)
    requires rest.state.Some? && rest.actions == Attempts(count', m', n')
    requires action == PhotoAttempt(true, RefreshesFully(count, m))
    ensures r.state.Some? && r.actions == Attempts(count, m, n)
  {
    AttemptsStep(count, m, n);
  }

  /** Over consecutive successful photo rounds every photo is shown and the
      update count advances by one per round, so the attempts are exactly
      those of `Attempts` from the starting count. */
  lemma {:induction false} PhotoRunRefreshes(st: LoopState, p: Processor, rule: ForceRule, inputs: seq<RoundInput>)
    requires p.targetWidth > 0 && p.targetHeight > 0
    requires st.display.detected && Cadence(st.display, rule) > 0
    requires forall i :: 0 <= i < |inputs| ==> WellFormedInput(inputs[i])
    requires forall i :: 0 <= i < |inputs| ==> GoodPhotoRound(inputs[i])
    ensures var r := Run(st, p, rule, inputs);
            r.state.Some? && r.actions == Attempts(st.display.updateCount, Cadence(st.display, rule), |inputs|)
    decreases |inputs|
  {
    var m := Cadence(st.display, rule);
    var count := st.display.updateCount;
    if inputs == [] {
      assert Run(st, p, rule, inputs) == RunResult(Some(st), []);
    } else {
      GoodRound(st, p, rule, inputs[0]);
      var first := Round(st, p, rule, inputs[0]);
      var next := first.state;
      GoodTail(inputs);
      PhotoRunRefreshes(next, p, rule, inputs[1..]);
      RunStep(st, p, rule, inputs);
      ConsAttempts(Run(st, p, rule, inputs), Run(next, p, rule, inputs[1..]), first.action, count, m, |inputs|,
                   next.display.updateCount, Cadence(next.display, rule), |inputs[1..]|);
    }
  }

  /** As written, a run of successful photo rounds forces a full refresh
      when the update count is a multiple of the display height; on its
      own `show` refreshes fully every tenth update. */
  lemma AsWrittenRunRefreshes(st: LoopState, p: Processor, inputs: seq<RoundInput>)
    requires p.targetWidth > 0 && p.targetHeight > 0
    requires st.display.detected && st.display.height > 0
    requires forall i :: 0 <= i < |inputs| ==> WellFormedInput(inputs[i])
    requires forall i :: 0 <= i < |inputs| ==> GoodPhotoRound(inputs[i])
    ensures var r := Run(st, p, ByHeight, inputs);
            && |r.actions| == |inputs|
            && forall j :: 0 <= j < |inputs| ==>
                 var count := st.display.updateCount + j;
                 && r.actions[j].PhotoAttempt? && r.actions[j].shown
                 && (r.actions[j].fullRefresh <==> count % st.display.height == 0 || count % FullRefreshCadence == 0)
  {
    PhotoRunRefreshes(st, p, ByHeight, inputs);
    forall j | 0 <= j < |inputs| {
      AttemptsAt(st.display.updateCount, st.display.height, |inputs|, j);
    }
  }

  /** With the configured cadence, a run of successful photo rounds is a
      full refresh exactly at the counts that are multiples of
      `full_refresh_every` or of ten. */
  lemma ConfiguredCadenceRun(st: LoopState, p: Processor, n: int, inputs: seq<RoundInput>)
    requires n > 0 && p.targetWidth > 0 && p.targetHeight > 0 && st.display.detected
    requires forall i :: 0 <= i < |inputs| ==> WellFormedInput(inputs[i])
    requires forall i :: 0 <= i < |inputs| ==> GoodPhotoRound(inputs[i])
    ensures var r := Run(st, p, Every(n), inputs);
            && |r.actions| == |inputs|
            && forall j :: 0 <= j < |inputs| ==>
                 var count := st.display.updateCount + j;
                 && r.actions[j].PhotoAttempt? && r.actions[j].shown
                 && (r.actions[j].fullRefresh <==> count % n == 0 || count % FullRefreshCadence == 0)
  {
    PhotoRunRefreshes(st, p, Every(n), inputs);
    forall j | 0 <= j < |inputs| {
      AttemptsAt(st.display.updateCount, n, |inputs|, j);
    }
  }

  /** Rounds without photos. */
  predicate AllIdle(inputs: seq<RoundInput>)
  {
    forall i :: 0 <= i < |inputs| ==> !inputs[i].hasPhotos
  }

  /** Once the flag is up, rounds without photos only wait: the display is
      never touched again. */
  lemma {:induction false} IdleRunsWait(st: LoopState, p: Processor, rule: ForceRule, inputs: seq<RoundInput>)
    requires forall i :: 0 <= i < |inputs| ==> WellFormedInput(inputs[i])
    requires st.placeholderShown && AllIdle(inputs)
    ensures Run(st, p, rule, inputs) == RunResult(Some(st), seq(|inputs|, _ => Waited))
    decreases |inputs|
  {
    if inputs != [] {
      IdleRunsWait(st, p, rule, inputs[1..]);
      assert [Waited] + seq(|inputs| - 1, _ => Waited) == seq(|inputs|, _ => Waited);
    }
  }

  /** With the flag down, a run of rounds without photos draws the
      placeholder in its first round and then only waits, provided the
      display is there and takes the drawing. */
  lemma PlaceholderDrawnOnce(st: LoopState, p: Processor, rule: ForceRule, inputs: seq<RoundInput>)
    requires forall i :: 0 <= i < |inputs| ==> WellFormedInput(inputs[i])
    requires !st.placeholderShown && AllIdle(inputs) && |inputs| > 0
    requires st.display.detected && true in inputs[0].turn.showAnswers
    ensures var r := Run(st, p, rule, inputs);
            && r.state.Some? && r.state.value.placeholderShown
            && r.actions == [PlaceholderDrawn] + seq(|inputs| - 1, _ => Waited)
            && r.state.value.display.staged == Some(Staged(Placeholder(st.display), st.display.saturation))
  {
    var r0 := Round(st, p, rule, inputs[0]);
    IdleRunsWait(r0.state, p, rule, inputs[1..]);
  }

  // ---------------------------------------------------------------------------
  // The placeholder flag at start-up
  // ---------------------------------------------------------------------------

  /** The flag as main.py initialises it: `not photo_sources.has_photos()`. */
  function InitialFlag(hasPhotosAtStart: bool): bool
  {
    !hasPhotosAtStart
  }

  /** The flag as the comment above it describes it: nothing has been
      shown yet. */
  function IntendedInitialFlag(hasPhotosAtStart: bool): (flag: bool)
    ensures !flag
  {
    false
  }

  /** As written, a frame that starts without photos never draws the
      placeholder while it stays without photos: the screen is left as it
      was. */
  lemma StartupFlagHidesPlaceholder(d: Manager, p: Processor, rule: ForceRule, inputs: seq<RoundInput>)
    requires forall i :: 0 <= i < |inputs| ==> WellFormedInput(inputs[i])
    requires AllIdle(inputs)
    ensures var st := LoopState(InitialFlag(false), d);
            var r := Run(st, p, rule, inputs);
            r.state == Some(st) && PlaceholderDrawn !in r.actions
  {
    IdleRunsWait(LoopState(InitialFlag(false), d), p, rule, inputs);
  }

  /** With the intended flag, a frame that starts without photos draws the
      placeholder exactly once, in the first round. */
  lemma IntendedFlagShowsPlaceholderOnce(d: Manager, p: Processor, rule: ForceRule, inputs: seq<RoundInput>)
    requires forall i :: 0 <= i < |inputs| ==> WellFormedInput(inputs[i])
    requires AllIdle(inputs) && |inputs| > 0
    requires d.detected && true in inputs[0].turn.showAnswers
    ensures var r := Run(LoopState(IntendedInitialFlag(false), d), p, rule, inputs);
            && r.actions[0] == PlaceholderDrawn
            && forall i :: 1 <= i < |r.actions| ==> r.actions[i] == Waited
  {
    PlaceholderDrawnOnce(LoopState(IntendedInitialFlag(false), d), p, rule, inputs);
  }

  // ---------------------------------------------------------------------------
  // The loop over a composite source
  // ---------------------------------------------------------------------------

  /** Which `has_photos` the loop consults on the composite. */
  datatype Reading = AsWritten | Intended

  function HasPhotosOf(c: Composite, reading: Reading): bool
  {
    match reading
    case AsWritten => CompositeHasPhotos(c)
    case Intended => IntendedHasPhotos(c)
  }

  /** One round's refresh environment, selection and turn. */
  datatype CompositeRound = CompositeRound(envs: seq<MemberEnv>, selected: Option<Path>, turn: PhotoTurn)

  predicate FitsComposite(c: Composite, rounds: seq<CompositeRound>)
  {
    forall i :: 0 <= i < |rounds| ==> |rounds[i].envs| == |c.members| && |rounds[i].turn.showAnswers| == MaxAttempts
  }

  /** The round inputs a composite source feeds the loop: it is refreshed
      at the top of every round and then asked `has_photos`. */
  function CompositeInputs(c: Composite, rounds: seq<CompositeRound>, reading: Reading): (r: seq<RoundInput>)
    requires FitsComposite(c, rounds)
    ensures |r| == |rounds|
    ensures forall i :: 0 <= i < |r| ==> WellFormedInput(r[i])
    ensures reading == AsWritten && OwnListEmpty(c) ==> AllIdle(r)
    decreases |rounds|
  {
    if rounds == [] then []
    else
      var c' := CompositeRefresh(c, rounds[0].envs);
      assert OwnListEmpty(c) ==> OwnListEmpty(c');
      var rest := CompositeInputs(c', rounds[1..], reading);
      [RoundInput(HasPhotosOf(c', reading), rounds[0].selected, rounds[0].turn)] + rest
  }

  /** As written, the frame over a composite source never shows anything:
      `has_photos` reads the composite's own list, which nothing fills, so
      start-up raises the flag and every round waits, whatever the member
      sources hold. */
  lemma CompositeFrameNeverDraws(members: seq<Member>, d: Manager, p: Processor, rule: ForceRule,
                                 rounds: seq<CompositeRound>)
    requires FitsComposite(NewComposite(members), rounds)
    ensures var c := NewComposite(members);
            var st := LoopState(InitialFlag(CompositeHasPhotos(c)), d);
            Run(st, p, rule, CompositeInputs(c, rounds, AsWritten)) == RunResult(Some(st), seq(|rounds|, _ => Waited))
  {
    var c := NewComposite(members);
    IdleRunsWait(LoopState(InitialFlag(CompositeHasPhotos(c)), d), p, rule, CompositeInputs(c, rounds, AsWritten));
  }

  /** With the intended reading, every round after a refresh that leaves
      some member photo attempts to show one. */
  lemma IntendedCompositeAttemptsPhotos(c: Composite, st: LoopState, p: Processor, rule: ForceRule,
                                        rounds: seq<CompositeRound>)
    requires FitsComposite(c, rounds) && |rounds| > 0
    requires CompositeCount(CompositeRefresh(c, rounds[0].envs)) > 0
    ensures Run(st, p, rule, CompositeInputs(c, rounds, Intended)).actions[0].PhotoAttempt?
  {
  }
}

=== FILE: photo_processor.dfy ===
/** The image pipeline of src/photo_processor.py over abstract image
    records: an image is its size, its colour mode, whether it carries an
    embedded colour profile, and the list of transformations applied to it
    so far. Pixel arithmetic is not modelled; sizes, modes and the order of
    the steps are. The crop geometry is exact integer arithmetic. */
module PhotoProcessor {
  import opened Util

  // ---------------------------------------------------------------------------
  // smart_crop geometry
  // ---------------------------------------------------------------------------

  /** A PIL crop box: (left, top, right, bottom). */
  datatype Box = Box(left: int, top: int, right: int, bottom: int)

  function Abs(x: int): nat
  {
    if x < 0 then -x else x
  }

  /** `abs(w / h - 4 / 3) < 0.01`, multiplied out by 300h. */
  predicate NearTarget(w: nat, h: nat)
  {
    100 * Abs(3 * w - 4 * h) < 3 * h
  }

  /** `w / h > 4 / 3`. */
  predicate WiderThanTarget(w: nat, h: nat)
  {
    3 * w > 4 * h
  }

  /** `portrait_bias == "top" and w / h < 0.8`. */
  predicate KeepsTop(w: nat, h: nat, bias: string)
  {
    bias == "top" && 5 * w < 4 * h
  }

  /** The box lies inside a w x h image. */
  predicate Inside(b: Box, w: nat, h: nat)
  {
    0 <= b.left <= b.right <= w && 0 <= b.top <= b.bottom <= h
  }

  /** The box `smart_crop` cuts from a w x h image, or `None` when the image
      is returned unchanged. A wide image keeps its full height and loses
      equal margins left and right (the left one smaller by at most a
      pixel); a tall one keeps its full width and either its top band or a
      centred band. The kept part is 4:3 up to integer truncation. */
  function CropBox(w: nat, h: nat, bias: string): (r: Option<Box>)
    requires h > 0
    ensures r.None? <==> NearTarget(w, h)
    ensures r.Some? ==> Inside(r.value, w, h)
    ensures r.Some? && WiderThanTarget(w, h) ==>
              && r.value.top == 0 && r.value.bottom == h
              && 0 <= 4 * h - 3 * (r.value.right - r.value.left) < 3
              && 0 <= (w - r.value.right) - r.value.left <= 1
    ensures r.Some? && !WiderThanTarget(w, h) ==>
              && r.value.left == 0 && r.value.right == w
              && 0 <= 3 * w - 4 * (r.value.bottom - r.value.top) < 4
    ensures r.Some? && !WiderThanTarget(w, h) && KeepsTop(w, h, bias) ==> r.value.top == 0
    ensures r.Some? && !WiderThanTarget(w, h) && !KeepsTop(w, h, bias) ==>
              0 <= (h - r.value.bottom) - r.value.top <= 1
  {
    if NearTarget(w, h) then None
    else if WiderThanTarget(w, h) then
      var newWidth := (h * 4) / 3;
      var left := (w - newWidth) / 2;
      Some(Box(left, 0, left + newWidth, h))
    else
      var newHeight := (w * 3) / 4;
      if KeepsTop(w, h, bias) then Some(Box(0, 0, w, newHeight))
      else
        var top := (h - newHeight) / 2;
        Some(Box(0, top, w, top + newHeight))
  }

  /** Cropping a cropped image again changes nothing once the kept part is
      large enough for truncation to stay inside the tolerance. */
  lemma CropSettles(w: nat, h: nat, bias: string, bias': string)
    requires h > 0 && CropBox(w, h, bias).Some?
    requires CropBox(w, h, bias).value.bottom - CropBox(w, h, bias).value.top > 100
    ensures var b := CropBox(w, h, bias).value;
            CropBox(b.right - b.left, b.bottom - b.top, bias').None?
  {
  }

  // ---------------------------------------------------------------------------
  // Image records
  // ---------------------------------------------------------------------------

  /** PIL colour modes, as far as the pipeline distinguishes them. */
  datatype ColorMode = RGB | RGBA | OtherMode

  /** One transformation recorded on an image. */
  datatype Step =
    | ConvertedToRgb
    | CompositedOnWhite
    | Cropped(box: Box)
    | ProfileApplied
    | Resized(width: nat, height: nat)
    | Saturation(factor: real)
    | Contrast(factor: real)
    | Sharpness(factor: real)
    | Drawn

  datatype Image = Image(width: nat, height: nat, mode: ColorMode, hasProfile: bool, steps: seq<Step>)

  /** The position of each step in the pipeline's fixed order. */
  function Stage(s: Step): nat
  {
    match s
    case Drawn => 0
    case CompositedOnWhite => 0
    case Cropped(_) => 1
    case ProfileApplied => 2
    case ConvertedToRgb => 3
    case Resized(_, _) => 4
    case Saturation(_) => 5
    case Contrast(_) => 6
    case Sharpness(_) => 7
  }

  /** Each step comes strictly later in the pipeline than the one before. */
  predicate InPipelineOrder(steps: seq<Step>)
  {
    forall i, j :: 0 <= i < j < |steps| ==> Stage(steps[i]) < Stage(steps[j])
  }

  /** The steps appended to `before` to give `after`. */
  predicate Extends(after: seq<Step>, before: seq<Step>)
  {
    |before| <= |after| && after[..|before|] == before
  }

  const SharpnessBoost: real := 1.2

  /** The step `smart_crop` records: one crop, or none when the image is
      already near 4:3. */
  function CropSteps(w: nat, h: nat, bias: string): (r: seq<Step>)
    requires h > 0
    ensures |r| <= 1 && (r == [] <==> NearTarget(w, h))
    ensures forall i :: 0 <= i < |r| ==> r[i].Cropped? && r[i].box == CropBox(w, h, bias).value
  {
    match CropBox(w, h, bias)
    case None => []
    case Some(b) => [Cropped(b)]
  }

  /** The steps `convert_p3_to_srgb` records: the profile transform when it
      was applied, then the conversion to RGB. */
  function ColourSteps(profileApplied: bool): (r: seq<Step>)
    ensures |r| > 0 && r[|r| - 1] == ConvertedToRgb
    ensures InPipelineOrder(r)
    ensures ProfileApplied in r <==> profileApplied
    ensures forall i :: 0 <= i < |r| ==> 2 <= Stage(r[i]) <= 3
  {
    (if profileApplied then [ProfileApplied] else []) + [ConvertedToRgb]
  }

  /** The steps `enhance_for_epaper` records: a factor of exactly 1.0 skips
      its step altogether; the sharpness boost is always applied, and last. */
  function EnhanceSteps(saturation: real, contrast: real): (r: seq<Step>)
    ensures InPipelineOrder(r)
    ensures forall i :: 0 <= i < |r| ==> 5 <= Stage(r[i])
    ensures |r| > 0 && r[|r| - 1] == Sharpness(SharpnessBoost)
    ensures forall s :: s in r <==>
              (s == Saturation(saturation) && saturation != 1.0)
              || (s == Contrast(contrast) && contrast != 1.0)
              || s == Sharpness(SharpnessBoost)
  {
    var sat := if saturation != 1.0 then [Saturation(saturation)] else [];
    var con := if contrast != 1.0 then [Contrast(contrast)] else [];
    sat + con + [Sharpness(SharpnessBoost)]
  }

  /** `smart_crop` applied to an image record. */
  function SmartCrop(img: Image, bias: string): (r: Image)
    requires img.height > 0
    ensures r.mode == img.mode && r.hasProfile == img.hasProfile
    ensures r.steps == img.steps + CropSteps(img.width, img.height, bias)
    ensures NearTarget(img.width, img.height) ==> r.width == img.width && r.height == img.height
    ensures !NearTarget(img.width, img.height) ==>
              var b := CropBox(img.width, img.height, bias).value;
              r.width == b.right - b.left && r.height == b.bottom - b.top
  {
    match CropBox(img.width, img.height, bias)
    case None => img
    case Some(b) => img.(width := b.right - b.left, height := b.bottom - b.top, steps := img.steps + [Cropped(b)])
  }

  /** `convert_p3_to_srgb`: an embedded profile is applied when the colour
      transform succeeds (`transformOk`) and silently skipped when it fails;
      the image is then converted to plain RGB either way. */
  function ConvertToSrgb(img: Image, transformOk: bool): (r: Image)
    ensures r.mode == RGB && r.width == img.width && r.height == img.height
    ensures r.steps == img.steps + ColourSteps(img.hasProfile && transformOk)
  {
    var profiled := if img.hasProfile && transformOk then img.(steps := img.steps + [ProfileApplied]) else img;
    profiled.(mode := RGB, steps := profiled.steps + [ConvertedToRgb])
  }

  function Resize(img: Image, width: nat, height: nat): Image
  {
    img.(width := width, height := height, steps := img.steps + [Resized(width, height)])
  }

  /** `enhance_for_epaper` applied to an image record: size and mode are
      kept. */
  function EnhanceForEpaper(img: Image, saturation: real, contrast: real): (r: Image)
    ensures r.width == img.width && r.height == img.height && r.mode == img.mode
    ensures r.steps == img.steps + EnhanceSteps(saturation, contrast)
  {
    img.(steps := img.steps + EnhanceSteps(saturation, contrast))
  }

  // ---------------------------------------------------------------------------
  // Loading
  // ---------------------------------------------------------------------------

  /** What the filesystem holds at a path: nothing, something PIL fails to
      open, a decodable image of the given size and mode, or an image whose
      header opens but whose pixel data ends early (the cache file an
      interrupted download leaves behind). */
  datatype ImageFile =
    | Missing
    | Unreadable
    | Readable(width: nat, height: nat, mode: ColorMode, hasProfile: bool)
    | Truncated(width: nat, height: nat, mode: ColorMode, hasProfile: bool)

  /** A file `Image.open` accepts and `load_image` hands on. PIL refuses to
      identify an image whose header gives a zero width or height. It reads
      only the header when opening, so a truncated RGB file gets through,
      while converting or splitting a truncated file of another mode
      decodes it and fails inside the `try`. */
  predicate Opens(file: ImageFile)
  {
    && (file.Readable? || (file.Truncated? && file.mode == RGB))
    && file.width > 0 && file.height > 0
  }

  /** `load_image`: a missing or undecodable file gives `None`; any mode
      other than RGB and RGBA is converted to RGB; RGBA is composited onto a
      fresh white RGB canvas, which carries no colour profile. */
  function LoadImage(file: ImageFile): (r: Option<Image>)
    ensures r.None? <==> !Opens(file)
    ensures r.Some? ==>
              && r.value.mode == RGB && r.value.width > 0 && r.value.height > 0
              && r.value.width == file.width && r.value.height == file.height
              && (CompositedOnWhite in r.value.steps <==> file.mode == RGBA)
              && (ConvertedToRgb in r.value.steps <==> file.mode == OtherMode)
              && r.value.hasProfile == (file.hasProfile && file.mode != RGBA)
  {
    match file
    case Missing => None
    case Unreadable => None
    case Readable(w, h, mode, profile) =>
      if w == 0 || h == 0 then None else
      (match mode
       case RGB => Some(Image(w, h, RGB, profile, []))
       case OtherMode => Some(Image(w, h, RGB, profile, [ConvertedToRgb]))
       case RGBA => Some(Image(w, h, RGB, false, [CompositedOnWhite])))
    case Truncated(w, h, mode, profile) =>
      if w == 0 || h == 0 || mode != RGB then None else Some(Image(w, h, RGB, profile, []))
  }

  // ---------------------------------------------------------------------------
  // PhotoProcessor
  // ---------------------------------------------------------------------------

  datatype Processor = Processor(targetWidth: int, targetHeight: int, saturation: real, contrast: real, portraitBias: string)

  /** The constructor's defaults. */
  function DefaultProcessor(): Processor
  {
    Processor(1600, 1200, 1.3, 1.2, "top")
  }

  /** Everything `process` records, in the order it happens. */
  function ProcessSteps(p: Processor, img: Image, transformOk: bool): seq<Step>
    requires img.height > 0 && p.targetWidth > 0 && p.targetHeight > 0
  {
    CropSteps(img.width, img.height, p.portraitBias) + ColourSteps(img.hasProfile && transformOk)
      + [Resized(p.targetWidth, p.targetHeight)] + EnhanceSteps(p.saturation, p.contrast)
  }

  /** `PhotoProcessor.process`: crop, colour conversion, resize, enhancement,
      in that order; the result has the target size and is RGB, it is
      cropped exactly when it was not already near 4:3, and the sharpness
      boost is the last thing done to it. */
  function Process(p: Processor, img: Image, transformOk: bool): (r: Image)
    requires img.height > 0 && p.targetWidth > 0 && p.targetHeight > 0
    ensures r.width == p.targetWidth && r.height == p.targetHeight && r.mode == RGB
    ensures Extends(r.steps, img.steps)
    ensures InPipelineOrder(r.steps[|img.steps|..])
    ensures Resized(p.targetWidth, p.targetHeight) in r.steps[|img.steps|..]
    ensures ConvertedToRgb in r.steps[|img.steps|..]
    ensures (exists b :: Cropped(b) in r.steps[|img.steps|..]) <==> !NearTarget(img.width, img.height)
    ensures |r.steps| > 0 && r.steps[|r.steps| - 1] == Sharpness(SharpnessBoost)
  {
    var cropped := SmartCrop(img, p.portraitBias);
    var srgb := ConvertToSrgb(cropped, transformOk);
    var resized := Resize(srgb, p.targetWidth, p.targetHeight);
    var r := EnhanceForEpaper(resized, p.saturation, p.contrast);
    ProcessStepsMeaning(p, img, transformOk);
    AppendedAfter(img.steps, CropSteps(img.width, img.height, p.portraitBias), ColourSteps(img.hasProfile && transformOk),
                  Resized(p.targetWidth, p.targetHeight), EnhanceSteps(p.saturation, p.contrast));
    r
  }

  /** Appending the four stages one after the other appends their
      concatenation, which is what follows the original steps. */
  lemma AppendedAfter(a: seq<Step>, crop: seq<Step>, colour: seq<Step>, resize: Step, enhance: seq<Step>)
    ensures var added := crop + colour + [resize] + enhance;
            && (a + crop + colour) + [resize] + enhance == a + added
            && Extends(a + added, a)
            && (a + added)[|a|..] == added
  {
    var added := crop + colour + [resize] + enhance;
    assert (a + crop + colour) + [resize] + enhance == a + added;
    assert (a + added)[..|a|] == a;
  }

  /** The steps of `process` are in pipeline order, include the resize and
      the RGB conversion, include a crop exactly when the image was not
      near 4:3, and end with the sharpness boost. */
  lemma ProcessStepsMeaning(p: Processor, img: Image, transformOk: bool)
    requires img.height > 0 && p.targetWidth > 0 && p.targetHeight > 0
    ensures var s := ProcessSteps(p, img, transformOk);
            && InPipelineOrder(s)
            && Resized(p.targetWidth, p.targetHeight) in s
            && ConvertedToRgb in s
            && ((exists b :: Cropped(b) in s) <==> !NearTarget(img.width, img.height))
            && s[|s| - 1] == Sharpness(SharpnessBoost)
  {
    var crop := CropSteps(img.width, img.height, p.portraitBias);
    var colour := ColourSteps(img.hasProfile && transformOk);
    var enhance := EnhanceSteps(p.saturation, p.contrast);
    StagesInOrder(crop, colour, Resized(p.targetWidth, p.targetHeight), enhance);
    StagesMembers(crop, colour, Resized(p.targetWidth, p.targetHeight), enhance);
    StagesCrop(crop, colour, Resized(p.targetWidth, p.targetHeight), enhance);
  }

  /** What the four stages of `process` each record, as far as the proofs
      below need it. */
  predicate StageShapes(crop: seq<Step>, colour: seq<Step>, resize: Step, enhance: seq<Step>)
  {
    && |crop| <= 1 && (forall i :: 0 <= i < |crop| ==> crop[i].Cropped?)
    && |colour| > 0 && InPipelineOrder(colour) && (forall i :: 0 <= i < |colour| ==> 2 <= Stage(colour[i]) <= 3)
    && resize.Resized?
    && |enhance| > 0 && InPipelineOrder(enhance) && (forall i :: 0 <= i < |enhance| ==> 5 <= Stage(enhance[i]))
  }

  lemma StagesInOrder(crop: seq<Step>, colour: seq<Step>, resize: Step, enhance: seq<Step>)
    requires StageShapes(crop, colour, resize, enhance)
    ensures InPipelineOrder(crop + colour + [resize] + enhance)
  {
    ConcatInOrder(crop, colour, 2);
    ConcatInOrder(crop + colour, [resize], 4);
    ConcatInOrder(crop + colour + [resize], enhance, 5);
  }

  lemma StagesMembers(crop: seq<Step>, colour: seq<Step>, resize: Step, enhance: seq<Step>)
    requires StageShapes(crop, colour, resize, enhance)
    ensures var s := crop + colour + [resize] + enhance;
            && resize in s
            && colour[|colour| - 1] in s
            && s[|s| - 1] == enhance[|enhance| - 1]
  {
    var s := crop + colour + [resize] + enhance;
    assert s[|crop| + |colour|] == resize;
    assert s[|crop| + |colour| - 1] == colour[|colour| - 1];
  }

  lemma StagesCrop(crop: seq<Step>, colour: seq<Step>, resize: Step, enhance: seq<Step>)
    requires StageShapes(crop, colour, resize, enhance)
    ensures (exists b :: Cropped(b) in crop + colour + [resize] + enhance) <==> |crop| > 0
  {
    var s := crop + colour + [resize] + enhance;
    var rest := colour + [resize] + enhance;
    forall i | 0 <= i < |rest| ensures 2 <= Stage(rest[i]) {
      if i < |colour| {
        assert rest[i] == colour[i];
      } else if i > |colour| {
        assert rest[i] == enhance[i - |colour| - 1];
      }
    }
    NoCropPastCropStage(rest);
    if |crop| == 0 {
      assert s == rest;
    } else {
      assert s[0] == crop[0] == Cropped(crop[0].box);
    }
  }

  /** Steps all past the crop stage hold no crop. */
  lemma NoCropPastCropStage(s: seq<Step>)
    requires forall i :: 0 <= i < |s| ==> 2 <= Stage(s[i])
    ensures forall b :: Cropped(b) !in s
  {
  }

  /** Two runs of steps in pipeline order, the first wholly before stage
      `n` and the second from stage `n` on, concatenate in order. */
  lemma {:induction false} ConcatInOrder(a: seq<Step>, b: seq<Step>, n: nat)
    requires InPipelineOrder(a) && InPipelineOrder(b)
    requires forall i :: 0 <= i < |a| ==> Stage(a[i]) < n
    requires forall i :: 0 <= i < |b| ==> n <= Stage(b[i])
    ensures InPipelineOrder(a + b)
  {
    forall i, j | 0 <= i < j < |a + b| ensures Stage((a + b)[i]) < Stage((a + b)[j])
    {
      if j < |a| {
        assert (a + b)[i] == a[i] && (a + b)[j] == a[j];
      } else if i < |a| {
        assert (a + b)[i] == a[i] && (a + b)[j] == b[j - |a|];
      } else {
        assert (a + b)[i] == b[i - |a|] && (a + b)[j] == b[j - |a|];
      }
    }
  }

  /** Why `ProcessFile` could not produce an image although loading worked. */
  datatype ProcessError =
    | TruncatedData    // the first decode of a truncated file raises OSError
    | BadTargetSize    // PIL refuses to resize to a non-positive size

  /** `PhotoProcessor.process_file`: `None` exactly when loading gives `None`,
      the processed image otherwise; the errors are the exceptions
      `process` would raise. A file that opens has a positive size, so
      `w / h` in smart_crop never divides by zero. A truncated file fails
      at its first decode: the crop, or else the final
      `convert("RGB")` (a failing colour transform before it is caught). */
  function ProcessFile(p: Processor, file: ImageFile, transformOk: bool): (r: Result<Option<Image>, ProcessError>)
    ensures r == Ok(None) <==> LoadImage(file).None?
    ensures r.Ok? && r.value.Some? ==>
              && r.value.value.width == p.targetWidth && r.value.value.height == p.targetHeight
              && r.value.value.mode == RGB
              && |r.value.value.steps| > 0
              && r.value.value.steps[|r.value.value.steps| - 1] == Sharpness(SharpnessBoost)
    ensures r.Err? <==> Opens(file) && (file.Truncated? || p.targetWidth <= 0 || p.targetHeight <= 0)
    ensures Opens(file) && file.Truncated? ==> r == Err(TruncatedData)
  {
    match LoadImage(file)
    case None => Ok(None)
    case Some(img) =>
      if file.Truncated? then Err(TruncatedData)
      else if p.targetWidth <= 0 || p.targetHeight <= 0 then Err(BadTargetSize)
      else Ok(Some(Process(p, img, transformOk)))
  }

  /** A picture one pixel wide is cropped to an empty 1 x 0 box (`int(1 /
      (4 / 3))` is 0), and that empty image still reaches the resize. */
  lemma OneColumnCropsToEmpty(p: Processor, bias: string, profile: bool, transformOk: bool)
    requires p.targetWidth > 0 && p.targetHeight > 0
    ensures CropBox(1, 1, bias) == Some(Box(0, 0, 1, 0))
    ensures ProcessFile(p, Readable(1, 1, RGB, profile), transformOk).Ok?
    ensures ProcessFile(p, Readable(1, 1, RGB, profile), transformOk).value.Some?
  {
  }
}

=== FILE: photo_sources.dfy ===
/** The per-source photo catalogs of src/photo_sources.py: the shared
    selection logic of `PhotoSource`, the filesystem-backed
    `LocalPhotoSource` and the cloud-backed `ICloudPhotoSource`.
    Filesystem listings, the remote library and download outcomes are
    parameters: the model receives what the environment answered. */
module PhotoSources {
  import opened Util

  /** A filesystem path as its list of components, the form in which
      pathlib compares paths. */
  type Path = seq<string>

  // ---------------------------------------------------------------------------
  // Selection mode
  // ---------------------------------------------------------------------------

  datatype SelectionMode = Random | Sequential

  /** The enum member's `.value`. */
  function ModeValue(m: SelectionMode): string
  {
    match m
    case Random => "random"
    case Sequential => "sequential"
  }

  /** What `set_selection_mode` may be handed: an enum member or a string. */
  datatype ModeArg = Member(mode: SelectionMode) | Text(text: string)

  /** `SelectionMode(mode.lower())` raises `ValueError` for an unknown value. */
  datatype ModeError = UnknownMode(text: string)

  /** Resolves the argument of `set_selection_mode`: an enum member is taken
      as is; a string is lowercased and looked up by value. */
  function ResolveMode(arg: ModeArg): (r: Result<SelectionMode, ModeError>)
    ensures arg.Member? ==> r == Ok(arg.mode)
    ensures arg.Text? ==> (r.Ok? <==> ToLower(arg.text) in {"random", "sequential"})
    ensures arg.Text? && r.Ok? ==> ModeValue(r.value) == ToLower(arg.text)
    ensures r.Err? ==> arg.Text? && r.error == UnknownMode(ToLower(arg.text))
  {
    match arg
    case Member(m) => Ok(m)
    case Text(s) =>
      var v := ToLower(s);
      if v == "random" then Ok(Random)
      else if v == "sequential" then Ok(Sequential)
      else Err(UnknownMode(v))
  }

  /** Every mode's own value, in any letter case, resolves back to it. */
  lemma ModeValueRoundTrip(m: SelectionMode)
    ensures ResolveMode(Text(ModeValue(m))) == Ok(m)
    ensures ResolveMode(Text(ToUpper(ModeValue(m)))) == Ok(m)
  {
    match m
    case Random =>
      assert ToLower("random") == "random";
      assert ToUpper("random") == "RANDOM";
      assert ToLower("RANDOM") == "random";
    case Sequential =>
      assert ToLower("sequential") == "sequential";
      assert ToUpper("sequential") == "SEQUENTIAL";
      assert ToLower("SEQUENTIAL") == "sequential";
  }

  // ---------------------------------------------------------------------------
  // The shared catalog state of every PhotoSource
  // ---------------------------------------------------------------------------

  /** The ordered photo list, the sequential cursor (which only grows and is
      read modulo the list length) and the active selection mode. */
  datatype Catalog<T> = Catalog(photos: seq<T>, cursor: nat, mode: SelectionMode)

  /** The state `PhotoSource.__init__` leaves behind. */
  function NewCatalog<T>(): Catalog<T>
  {
    Catalog([], 0, Random)
  }

  function Count<T>(c: Catalog<T>): nat
  {
    |c.photos|
  }

  predicate HasPhotos<T>(c: Catalog<T>)
  {
    |c.photos| > 0
  }

  function SetMode<T>(c: Catalog<T>, arg: ModeArg): (r: Result<Catalog<T>, ModeError>)
    ensures r.Ok? <==> ResolveMode(arg).Ok?
    ensures r.Ok? ==> r.value == c.(mode := ResolveMode(arg).value)
  {
    match ResolveMode(arg)
    case Ok(m) => Ok(c.(mode := m))
    case Err(e) => Err(e)
  }

  /** Setting a mode by its member, by its value or by its upper-cased
      value gives the catalog in that mode, with its photos and cursor
      kept; a name that is not a mode's value in any letter case is
      refused, naming its lower-cased form. */
  lemma SetModeByValue<T>(c: Catalog<T>, m: SelectionMode, s: string)
    ensures SetMode(c, Member(m)) == Ok(c.(mode := m))
    ensures SetMode(c, Text(ModeValue(m))) == Ok(c.(mode := m))
    ensures SetMode(c, Text(ToUpper(ModeValue(m)))) == Ok(c.(mode := m))
    ensures SetMode(c, Text(s)).Ok? ==> SetMode(c, Text(s)).value.photos == c.photos
    ensures (forall m' :: ToLower(s) != ModeValue(m')) <==> SetMode(c, Text(s)) == Err(UnknownMode(ToLower(s)))
  {
    ModeValueRoundTrip(m);
    assert ModeValue(Random) == "random" && ModeValue(Sequential) == "sequential";
  }

  /** One sequential pick: the cursor read modulo the list length, and the
      catalog with the cursor advanced by one. */
  function SelectSequential<T>(c: Catalog<T>): (r: (nat, Catalog<T>))
    requires |c.photos| > 0
    ensures r.0 < |c.photos| && r.0 == c.cursor % |c.photos|
    ensures r.1.photos == c.photos && r.1.mode == c.mode
    ensures r.1.cursor == c.cursor + 1
  {
    (c.cursor % |c.photos|, c.(cursor := c.cursor + 1))
  }

  /** `select_photo_index`: nothing when the list is empty; otherwise a
      uniformly random index (`random.randint(0, n - 1)`, modelled as a
      choice of any index in range) or the sequential pick. */
  method SelectPhotoIndex<T>(c: Catalog<T>) returns (index: Option<nat>, c': Catalog<T>)
    ensures index.None? <==> |c.photos| == 0
    ensures index.Some? ==> index.value < |c.photos|
    ensures c.mode == Sequential && |c.photos| > 0 ==>
              index == Some(c.cursor % |c.photos|) && c' == c.(cursor := c.cursor + 1)
    ensures c.mode == Random || |c.photos| == 0 ==> c' == c
  {
    if !HasPhotos(c) {
      return None, c;
    }
    if c.mode == Random {
      var k: nat :| k < |c.photos|;
      return Some(k), c;
    }
    var pick := SelectSequential(c);
    index, c' := Some(pick.0), pick.1;
  }

  /** The indices returned by `k` consecutive sequential selections. */
  function SequentialRun<T>(c: Catalog<T>, k: nat): seq<nat>
    requires |c.photos| > 0
    decreases k
  {
    if k == 0 then []
    else
      var pick := SelectSequential(c);
      [pick.0] + SequentialRun(pick.1, k - 1)
  }

  /** Sequential selection over a list of length n yields cursor, cursor+1,
      ... modulo n: it visits the list in order and wraps. */
  lemma {:induction false} SequentialVisitsInOrder<T>(c: Catalog<T>, k: nat)
    requires |c.photos| > 0
    ensures |SequentialRun(c, k)| == k
    ensures forall j :: 0 <= j < k ==> SequentialRun(c, k)[j] == (c.cursor + j) % |c.photos|
    decreases k
  {
    if k > 0 {
      var next := SelectSequential(c).1;
      SequentialVisitsInOrder(next, k - 1);
      forall j | 0 <= j < k
        ensures SequentialRun(c, k)[j] == (c.cursor + j) % |c.photos|
      {
        if j > 0 {
          assert SequentialRun(c, k)[j] == SequentialRun(next, k - 1)[j - 1];
        }
      }
    }
  }

  /** Three photos selected four times from a fresh cursor: 0, 1, 2, 0. */
  lemma SequentialThreePhotosWrap<T>(c: Catalog<T>)
    requires |c.photos| == 3 && c.cursor == 0
    ensures SequentialRun(c, 4) == [0, 1, 2, 0]
  {
    SequentialVisitsInOrder(c, 4);
  }

  /** Python's `seq[index]` with an `IndexError` turned into `None`: indices
      from -n to -1 count from the end. */
  function PyIndex<T>(s: seq<T>, index: int): Option<T>
  {
    if 0 <= index < |s| then Some(s[index])
    else if -|s| <= index < 0 then Some(s[|s| + index])
    else None
  }

  // ---------------------------------------------------------------------------
  // Path ordering (pathlib compares paths component by component)
  // ---------------------------------------------------------------------------

  /** Python's string order: by code point, a prefix first. */
  predicate StrLe(a: string, b: string)
  {
    |a| == 0 || (|b| > 0 && (a[0] < b[0] || (a[0] == b[0] && StrLe(a[1..], b[1..]))))
  }

  predicate PathLe(p: Path, q: Path)
  {
    |p| == 0 || (|q| > 0 && (if p[0] == q[0] then PathLe(p[1..], q[1..]) else StrLe(p[0], q[0])))
  }

  lemma {:induction false} StrLeTotal(a: string, b: string)
    ensures StrLe(a, b) || StrLe(b, a)
    decreases |a|
  {
    if |a| > 0 && |b| > 0 && a[0] == b[0] {
      StrLeTotal(a[1..], b[1..]);
    }
  }

  lemma {:induction false} PathLeTotal(p: Path, q: Path)
    ensures PathLe(p, q) || PathLe(q, p)
    decreases |p|
  {
    if |p| > 0 && |q| > 0 {
      if p[0] == q[0] {
        PathLeTotal(p[1..], q[1..]);
      } else {
        StrLeTotal(p[0], q[0]);
      }
    }
  }

  predicate Sorted(s: seq<Path>)
  {
    |s| <= 1 || (PathLe(s[0], s[1]) && Sorted(s[1..]))
  }

  function Insert(x: Path, s: seq<Path>): (r: seq<Path>)
    requires Sorted(s)
    ensures Sorted(r)
    ensures multiset(r) == multiset(s) + multiset{x}
    ensures r[0] == x || (|s| > 0 && r[0] == s[0])
  {
    if |s| == 0 then [x]
    else if PathLe(x, s[0]) then [x] + s
    else
      PathLeTotal(x, s[0]);
      var rest := Insert(x, s[1..]);
      assert s == [s[0]] + s[1..];
      [s[0]] + rest
  }

  /** `sorted(paths)`: the same paths, in pathlib order. */
  function SortPaths(s: seq<Path>): (r: seq<Path>)
    ensures Sorted(r)
    ensures multiset(r) == multiset(s)
  {
    if |s| == 0 then []
    else
      assert s == [s[0]] + s[1..];
      Insert(s[0], SortPaths(s[1..]))
  }

  // ---------------------------------------------------------------------------
  // LocalPhotoSource
  // ---------------------------------------------------------------------------

  /** One entry the directory walk yielded, and whether it is a regular file. */
  datatype Entry = Entry(path: Path, isFile: bool)

  /** The local source: its catalog of file paths, its root and whether the
      walk is recursive (`rglob("*")`) or one level (`iterdir()`). */
  datatype LocalSource = LocalSource(catalog: Catalog<Path>, root: Path, recursive: bool)

  const SupportedExtensions: set<string> :=
    {".jpg", ".jpeg", ".png", ".gif", ".bmp", ".heic", ".heif", ".webp"}

  /** `path.name`: the last component. */
  function Name(p: Path): string
  {
    if |p| == 0 then "" else p[|p| - 1]
  }

  /** `s.rfind(c)`: the last position of `c`, or -1. */
  function RFind(s: string, c: char): (i: int)
    ensures -1 <= i < |s|
    ensures 0 <= i ==> s[i] == c && forall j :: i < j < |s| ==> s[j] != c
    ensures i == -1 ==> forall j :: 0 <= j < |s| ==> s[j] != c
  {
    if |s| == 0 then -1
    else if s[|s| - 1] == c then |s| - 1
    else RFind(s[..|s| - 1], c)
  }

  /** `path.suffix` for a file name: from the last dot on, provided that dot
      is neither the first nor the last character. */
  function Suffix(name: string): (r: string)
    ensures r == "" || (|r| >= 2 && |r| < |name| && r[0] == '.' && r == name[|name| - |r|..])
    ensures r != "" ==> forall j :: 1 <= j < |r| ==> r[j] != '.'
    ensures r == "" ==> forall i :: 0 < i < |name| - 1 && name[i] == '.' ==> '.' in name[i + 1..]
  {
    var i := RFind(name, '.');
    if 0 < i < |name| - 1 then name[i..] else ""
  }

  /** A hidden file such as ".jpg" and a trailing-dot name have no suffix. */
  lemma SuffixExamples()
    ensures Suffix("IMG_1.JPG") == ".JPG"
    ensures Suffix("archive.tar.gz") == ".gz"
    ensures Suffix(".jpg") == ""
    ensures Suffix("photo.") == ""
  {
    var jpg := "IMG_1.JPG";
    assert jpg[5] == '.' && jpg[6] != '.' && jpg[7] != '.' && jpg[8] != '.';
    assert RFind(jpg, '.') == 5;
    assert RFind("archive.tar.gz", '.') == 11;
    var hidden := ".jpg";
    assert hidden[0] == '.' && hidden[1] != '.' && hidden[2] != '.' && hidden[3] != '.';
    assert RFind(hidden, '.') == 0;
    assert RFind("photo.", '.') == 5;
  }

  /** `file.is_file() and file.suffix.lower() in SUPPORTED_EXTENSIONS`. */
  predicate Eligible(e: Entry)
  {
    e.isFile && ToLower(Suffix(Name(e.path))) in SupportedExtensions
  }

  /** The paths of the entries `keep` accepts, in the order the walk
      yielded them. */
  function KeptPaths(listing: seq<Entry>, keep: Entry -> bool): seq<Path>
  {
    if |listing| == 0 then []
    else (if keep(listing[0]) then [listing[0].path] else []) + KeptPaths(listing[1..], keep)
  }

  lemma {:induction false} KeptPathsMembership(listing: seq<Entry>, keep: Entry -> bool, p: Path)
    ensures p in KeptPaths(listing, keep) <==> exists e :: e in listing && keep(e) && e.path == p
    decreases |listing|
  {
    if |listing| > 0 {
      var head, tail := listing[0], listing[1..];
      KeptPathsMembership(tail, keep, p);
      assert listing == [head] + tail;
      if p in KeptPaths(listing, keep) && !(keep(head) && head.path == p) {
        var e :| e in tail && keep(e) && e.path == p;
        assert e in listing;
      }
      if exists e :: e in listing && keep(e) && e.path == p {
        var e :| e in listing && keep(e) && e.path == p;
        if e != head {
          assert e in tail;
        }
      }
    }
  }

  /** The eligible paths, in the order the walk yielded them. */
  function EligiblePaths(listing: seq<Entry>): seq<Path>
  {
    KeptPaths(listing, Eligible)
  }

  /** A path is eligible exactly when the walk yielded it as an eligible entry. */
  lemma EligiblePathsMembership(listing: seq<Entry>, p: Path)
    ensures p in EligiblePaths(listing) <==> exists e :: e in listing && Eligible(e) && e.path == p
  {
    KeptPathsMembership(listing, Eligible, p);
  }

  /** `LocalPhotoSource.refresh`: `scan` is what the directory walk produced,
      or `None` when it raised; an exception leaves the old list in place.
      The cursor and mode are never touched. */
  function RefreshLocal(src: LocalSource, scan: Option<seq<Entry>>): (r: LocalSource)
    ensures scan.None? ==> r == src
    ensures r == src.(catalog := src.catalog.(photos := r.catalog.photos))
    ensures scan.Some? ==> Sorted(r.catalog.photos)
    ensures scan.Some? ==> multiset(r.catalog.photos) == multiset(EligiblePaths(scan.value))
  {
    match scan
    case None => src
    case Some(listing) => src.(catalog := src.catalog.(photos := SortPaths(EligiblePaths(listing))))
  }

  /** After a successful refresh a path is listed exactly when the walk saw
      it as an eligible regular file: stale entries do not survive. */
  lemma RefreshLocalMembership(src: LocalSource, listing: seq<Entry>, p: Path)
    ensures (p in RefreshLocal(src, Some(listing)).catalog.photos)
              <==> (exists e :: e in listing && Eligible(e) && e.path == p)
  {
    var photos := RefreshLocal(src, Some(listing)).catalog.photos;
    assert p in photos <==> p in multiset(photos);
    assert p in EligiblePaths(listing) <==> p in multiset(EligiblePaths(listing));
    EligiblePathsMembership(listing, p);
  }

  /** `LocalPhotoSource.get_photo_path`: Python list indexing, so an index
      past the end gives nothing while a negative one counts from the end. */
  function LocalPhotoPath(src: LocalSource, index: int): (r: Option<Path>)
    ensures r.None? <==> index >= |src.catalog.photos| || index < -|src.catalog.photos|
    ensures r.Some? ==> r.value in src.catalog.photos
  {
    PyIndex(src.catalog.photos, index)
  }

  /** A negative index `i - n` reaches the same photo as `i`. */
  lemma LocalNegativeIndexWraps(src: LocalSource, i: int)
    requires 0 <= i < |src.catalog.photos|
    ensures LocalPhotoPath(src, i - |src.catalog.photos|) == LocalPhotoPath(src, i) == Some(src.catalog.photos[i])
  {
  }

  // ---------------------------------------------------------------------------
  // ICloudPhotoSource
  // ---------------------------------------------------------------------------

  /** The cloud source: its catalog of remote asset ids, the cache
      directory, the names of the files present in it, and whether the
      session is authenticated. */
  datatype ICloudSource = ICloudSource(catalog: Catalog<string>, cacheDir: Path, cached: set<string>, authenticated: bool)

  /** How the download of one asset ended: written completely, refused
      before any file was opened, or interrupted after the destination file
      had been created (a partial file stays in the cache). */
  datatype Download = Completed | NotStarted | Interrupted

  /** `f"{photo_obj.id}.jpg"`. */
  function CacheFileName(id: string): string
  {
    id + ".jpg"
  }

  /** The path `get_photo_path` returned, the source afterwards, and whether
      a download was requested from the remote service. */
  datatype Fetch = Fetch(path: Option<Path>, source: ICloudSource, requested: bool)

  /** `ICloudPhotoSource.get_photo_path`: an index outside [0, n) gives
      nothing at once; a cached asset is served from the cache; otherwise a
      download is requested (only an authenticated session reaches the
      service) and the path is returned only if the cache file now exists. */
  function ICloudPhotoPath(src: ICloudSource, index: int, download: Download): (r: Fetch)
    ensures index < 0 || index >= |src.catalog.photos| ==> r == Fetch(None, src, false)
    ensures 0 <= index < |src.catalog.photos| ==>
              var name := CacheFileName(src.catalog.photos[index]);
              && (r.requested <==> name !in src.cached && src.authenticated)
              && r.source.cached == (if r.requested && download != NotStarted then src.cached + {name} else src.cached)
              && (r.path.Some? <==> name in r.source.cached)
              && (r.path.Some? ==> r.path.value == src.cacheDir + [name])
    ensures r.source == src.(cached := r.source.cached)
  {
    if index < 0 || index >= |src.catalog.photos| then Fetch(None, src, false)
    else
      var name := CacheFileName(src.catalog.photos[index]);
      var file := src.cacheDir + [name];
      if name in src.cached then Fetch(Some(file), src, false)
      else
        var requested := src.authenticated;
        var created := requested && download != NotStarted;
        var src' := if created then src.(cached := src.cached + {name}) else src;
        Fetch(if created then Some(file) else None, src', requested)
  }

  /** Asking for the same index twice downloads at most once: once the first
      call produced a file, the second is served from the cache. */
  lemma ICloudSecondFetchIsCached(src: ICloudSource, index: int, first: Download, second: Download)
    requires ICloudPhotoPath(src, index, first).path.Some?
    ensures var r1 := ICloudPhotoPath(src, index, first);
            var r2 := ICloudPhotoPath(r1.source, index, second);
            !r2.requested && r2.path == r1.path && r2.source == r1.source
  {
  }

  /** `ICloudPhotoSource.refresh`: an unauthenticated session first tries to
      authenticate (`authOk`) and gives up quietly on failure; `fetched` is
      the remote library, or `None` when enumerating it raised, which leaves
      the old list in place. */
  function RefreshICloud(src: ICloudSource, authOk: bool, fetched: Option<seq<string>>): (r: ICloudSource)
    ensures !src.authenticated && !authOk ==> r == src
    ensures (src.authenticated || authOk) ==>
              && r.authenticated
              && r.catalog.photos == (if fetched.Some? then fetched.value else src.catalog.photos)
    ensures r.catalog.cursor == src.catalog.cursor && r.catalog.mode == src.catalog.mode
    ensures r.cached == src.cached && r.cacheDir == src.cacheDir
  {
    if !src.authenticated && !authOk then src
    else
      var s := src.(authenticated := true);
      match fetched
      case None => s
      case Some(ids) => s.(catalog := s.catalog.(photos := ids))
  }
}

=== FILE: util.dfy ===
/** Small shared vocabulary: optional values, results of calls that may
    raise, and the ASCII case mapping Python's str.lower()/str.upper()
    perform on the identifiers this program compares. */
module Util {

  /** A value that may be absent (Python's `None`). */
  datatype Option<T> = None | Some(value: T)

  /** The outcome of a call that either returns a value or raises. */
  datatype Result<T, E> = Ok(value: T) | Err(error: E)

  function LowerChar(c: char): char
  {
    if 'A' <= c <= 'Z' then (c as int + 32) as char else c
  }

  function UpperChar(c: char): char
  {
    if 'a' <= c <= 'z' then (c as int - 32) as char else c
  }

  /** `s.lower()` restricted to the ASCII letters. */
  function ToLower(s: string): string
  {
    seq(|s|, i requires 0 <= i < |s| => LowerChar(s[i]))
  }

  /** `s.upper()` restricted to the ASCII letters. */
  function ToUpper(s: string): string
  {
    seq(|s|, i requires 0 <= i < |s| => UpperChar(s[i]))
  }
}
